=== FILE: README.md ===
# pytest-async-mongodb, modelled in Dafny

This project models the core of the `pytest_async_mongodb` pytest plugin. The plugin
gives each test an in-memory, mongomock-backed database handle named `pytest`. It
fills that database from JSON or YAML fixture files before the test body runs.

The model covers:

- **Collection facade** (`AsyncCollection`), module `Collection`.
  - `find_one` normalises its filter: `None` becomes `{}`, and a non-mapping value
    becomes `{'_id': v}`. It then answers with the first match, or `None`.
  - `_delete` refuses a truthy `hint`, then a truthy `collation`. It then removes the
    first matching document, or every match when `multi` is set. It returns the
    four-field wire result `connectionId`, `n`, `ok`, `err`.
  - `delete_one` wraps that result as an acknowledged `DeleteResult`.
- **Collection store**, module `Stores`. The store maps store keys to documents and
  keeps insertion order, like the Python dict it stands for. A dict-valued `_id`
  is stored under its `hashdict` form (`Key.Hashed`).
- **Instance caches** (`AsyncMockMongoClient.get_database`,
  `AsyncDatabase.get_collection`), module `Clients`. Both use one get-or-create
  discipline over a name-keyed map. An instance is created only when its name is
  absent, and no entry is ever evicted.
- **Fixture pipeline**, modules `Fixtures` and `Paths`:
  - marker resolution in `async_mongodb`;
  - the directory choice `option_dir or ini_dir`;
  - the per-entry test on stem and extension, using the POSIX `basename`,
    `splitext`, `strip('.')` and `join` semantics;
  - the skip of collections that already exist;
  - `load_fixture` with the process-wide parse cache `_cache`;
  - insertion in file order;
  - `clean_database`.

All state is immutable. Every step is a pure function that returns the new state,
plus a result or the exception raised. A step that raises part-way returns the
state reached at that point (`Outcome(world, failure)`). This matters because the
parse cache survives into later tests.

External behaviour enters as parameters:

- query matching is a `Matcher` function;
- the directory listing and file decoding are the two functions of an `Env`;
- the client's connection id is a number;
- ObjectId generation is a counter.

In `_delete`, a truthy `session` constructs a `NotImplementedError` but never raises
it (pytest_async_mongodb/plugin.py:100-101), unlike the `raise` statements for `hint`
and `collation` just above it. The model follows the code as written: a session
passes through and changes nothing (`Collection.DeleteIgnoresSession`).

## Model

| member | source | states |
|---|---|---|
| `Collection.FindOne` | pytest_async_mongodb/plugin.py:71-84 | The result is `None` exactly when no stored document matches the normalised filter. Otherwise it is a stored, matching document whose key comes no later in store order than any other match, i.e. the first match. Zero matches is not an error. |
| `Collection.FindOneNoneIsMatchAll` | pytest_async_mongodb/plugin.py:75-76 | `find_one(None)` answers exactly as `find_one({})`. |
| `Collection.FindOneIdShorthand` | pytest_async_mongodb/plugin.py:77-78 | For any value that is neither `None` nor a mapping, `find_one(v)` answers exactly as `find_one({'_id': v})`. |
| `Collection.FindOneOnEmpty` | pytest_async_mongodb/plugin.py:80-84 | On an empty collection `find_one` returns `None` for every filter. |
| `Collection.Delete` | pytest_async_mongodb/plugin.py:90-125 | A truthy `hint` raises the hint error. A falsy `hint` with a truthy `collation` raises the collation error. In every other case it succeeds. On success the new store is the old one minus the first matching key, or minus every matching key under `multi`; no other entry changes, and the surviving keys keep their insertion order. `n` is the number of entries removed, `ok` is 1.0, `err` is `None`, and `connectionId` is the owning client's id. |
| `Collection.RemoveFound` | pytest_async_mongodb/plugin.py:110-118 | The deletion loop removes the entry of the first found document, or of every found document under `multi`. The surviving keys keep their order. The count equals the entries removed: 0 or 1 without `multi`, all of them with it. |
| `Collection.RemoveFirst` | pytest_async_mongodb/plugin.py:111-118 | Without `multi` the loop breaks after the first found document: exactly that document's entry goes, the other keys keep their order, and the count is 1. |
| `Collection.RemoveEvery` | pytest_async_mongodb/plugin.py:111-116 | Looping over distinct found documents removes exactly their keys from the store, keeps the order of the others, and counts one per document. |
| `Collection.DeleteIgnoresSession` | pytest_async_mongodb/plugin.py:100-101 | The result of `_delete` does not depend on `session`: supplying one neither raises nor changes anything. |
| `Collection.DeleteManyLeavesNoMatch` | pytest_async_mongodb/plugin.py:108-119 | `_delete` with `multi` and no hint or collation succeeds. It leaves no document matching the filter, and `n` equals the number of matches before the call. |
| `Values.NormaliseFilter` | pytest_async_mongodb/plugin.py:75-78 | The filter normalisation of `find_one`, repeated in `_delete` at lines 103-106. `None` becomes the empty filter, which matches every document. A mapping is used as given. Any other value `v` becomes the one-field filter `{'_id': v}`. |
| `Collection.DeleteOne` | pytest_async_mongodb/plugin.py:86-88 | It fails exactly when `hint` or `collation` is truthy. On success the result is acknowledged, and the deleted count is 0 or 1. That count equals the number of entries removed, and it is 0 exactly when nothing matched. The store loses exactly the entries `_delete` picks (the first match in store order), and the remaining keys keep their order. When nothing matches, the store is returned unchanged. The raw result passes on `_delete`'s `connectionId`, `ok` and `err`: the client id, 1.0 and `None`. |
| `Collection.DeleteOneRemovesFirstMatch` | pytest_async_mongodb/plugin.py:86-118 | When `k` is the first matching key in store order, `delete_one` removes `k` and nothing else, the other keys keep their order, and the count is 1. |
| `Stores.MatchingKeys` | pytest_async_mongodb/plugin.py:108 | The matched keys are exactly the store's keys in store order with the non-matching ones left out. So they are distinct, a key is among them exactly when it is stored and its document matches, and the first of them precedes every other match. |
| `Stores.Find` | pytest_async_mongodb/plugin.py:108-112 | Every found document carries an `_id`. The store keys of the found documents are exactly the matched keys, in order, and each found document is the one stored under its key. |
| `Stores.Remove` | pytest_async_mongodb/plugin.py:115 | `del store[key]` removes exactly that key and keeps the store well formed. The remaining keys keep their insertion order: the new order is the old one with that single position cut out. |
| `Stores.Without` | pytest_async_mongodb/plugin.py:115 | Taking a key out of an order leaves every other key, in the same order. An absent key changes nothing, and in an order without repeats it cuts out exactly the key's position. |
| `Values.KeyOf` | pytest_async_mongodb/plugin.py:112-114 | An id is stored under its `hashdict` form exactly when it is a dict, and the key gives the id back. |
| `Values.KeyOfInjective` | pytest_async_mongodb/plugin.py:112-115 | Two ids share a store key exactly when they are equal, so `del` by key removes one document's entry. |
| `Stores.InsertOne` | pytest_async_mongodb/plugin.py:222 | `insert_one` of a document whose own `_id` is already stored fails. In the model it also fails when the counter-generated id is already stored, which the source's fresh ObjectIds avoid (see `Stores.InsertOne` under Left out). Otherwise the document is appended after every stored document, and the id counter advances only when an id was generated. |
| `Clients.GetOrCreate` | pytest_async_mongodb/plugin.py:142-144 | The returned instance is the one cached under the name afterwards. The cache keeps every earlier entry unchanged and gains at most that name. A cached name returns its stored instance; an absent one stores the newly constructed instance. |
| `Clients.GetOrCreateIdempotent` | pytest_async_mongodb/plugin.py:142-145 | A second get-or-create with the same name returns the first call's instance and cache, whatever a new construction would produce. |
| `Clients.GetDatabase` | pytest_async_mongodb/plugin.py:152-158 | `get_database(name)` returns a database with that name belonging to this client, created empty when new. It is cached under its name. The other cached databases are untouched, and no entry is removed. |
| `Clients.GetDatabaseIdempotent` | pytest_async_mongodb/plugin.py:155-158 | Asking a client twice for the same name returns the same database and leaves the client unchanged. |
| `Clients.GetCollection` | pytest_async_mongodb/plugin.py:140-145 | `get_collection(name)` returns the facade of that name for this database and caches it. Only the facade cache changes, and existing entries keep their values. |
| `Clients.GetCollectionIdempotent` | pytest_async_mongodb/plugin.py:142-145 | Asking a database twice for the same collection returns the same facade and leaves the database unchanged. |
| `Clients.DropCollection` | pytest_async_mongodb/plugin.py:184 | Dropping a collection removes only its storage from the collection names. Every other collection keeps its contents. |
| `Fixtures.CleanDatabase` | pytest_async_mongodb/plugin.py:181-184 | After cleaning, no collection exists in storage. The name, the client and the cached facades are unchanged. |
| `Fixtures.ResolveMarker` | pytest_async_mongodb/plugin.py:163-172 | A missing marker yields `None`, and a marker without arguments raises IndexError. A list argument becomes the set of its items, with duplicates collapsed; it raises when an item is unhashable. Any other argument is used as is. |
| `Fixtures.ResolveDir` | pytest_async_mongodb/plugin.py:190-193 | The directory is the command-line option when it is present and non-empty, and the ini value otherwise. |
| `Fixtures.OptionDirWins` | pytest_async_mongodb/plugin.py:190-193 | With a non-empty command-line directory, the ini directory has no influence on what `load_fixtures` does. |
| `Fixtures.IniDirFallback` | pytest_async_mongodb/plugin.py:190-193 | Without a non-empty command-line directory, `load_fixtures` behaves as if the ini directory had been given. |
| `Fixtures.Select` | pytest_async_mongodb/plugin.py:199 | A successful answer is true exactly when the stem is requested. For a set that means membership; for a string it means substring containment; for a list or dict it means item or key membership; a falsy value requests nothing. It raises exactly for a truthy value that is not a container. |
| `Fixtures.EntryParts` | pytest_async_mongodb/plugin.py:196-198 | How `Stem`, `Format` and `Supported` read a directory entry. The stem has no `/` and is a prefix of the file name that is either the whole name or stops just before a dot. The format has no dot and no `/`. The file name is the stem alone, or the stem, one dot and the format. So the entry is supported exactly when its file name is its stem followed by `.json` or `.yaml`, case-sensitively. |
| `Fixtures.NameParts` | pytest_async_mongodb/plugin.py:196-197 | For an entry `stem.ext` with no dot in `ext`, and a stem that is not all dots, the collection is `stem` and the format is `ext`. |
| `Fixtures.JsonEntry` | pytest_async_mongodb/plugin.py:196-198 | `widgets.json` names collection `widgets` with format `json`. |
| `Fixtures.UpperCaseEntrySkipped` | pytest_async_mongodb/plugin.py:197-198 | The format test is case-sensitive: `widgets.JSON` is not a supported format. |
| `Fixtures.YmlEntrySkipped` | pytest_async_mongodb/plugin.py:197-198 | `widgets.yml` is not a supported format. |
| `Fixtures.HiddenEntrySkipped` | pytest_async_mongodb/plugin.py:196-198 | The leading-dot name `.json` has no extension and is not a supported format. |
| `Fixtures.VisitFile` | pytest_async_mongodb/plugin.py:196-203 | A TypeError from the selection aborts the loop. An entry is loaded from `basedir/name` exactly when three things hold: its format is `json` or `yaml`, its stem is requested, and no collection of that name exists yet. Any other entry leaves the state as it was. Existing collections are never re-seeded, and a new collection can only be the entry's stem. The only path the step can add to the parse cache is `basedir/name`, and only when the entry is eligible. |
| `Fixtures.LoadEach` | pytest_async_mongodb/plugin.py:195-203 | Looping over the listing keeps every existing collection's contents and the fixture-cache invariant. The cache only grows. When the loop finishes without raising, every listed entry with a supported format and a requested stem has had its effect: its collection exists, or its cached document list is empty. |
| `Fixtures.LoadEachFirstFixture` | pytest_async_mongodb/plugin.py:195-222 | Take a requested collection that did not exist, and the first listed entry with a supported format for it. When the loop finishes without raising and that file's cached documents are not empty, the collection holds exactly those documents in file order, each with its own fields and its own `_id`, or a generated ObjectId where it had none. |
| `Fixtures.LoadEachReadsOnlyEligible` | pytest_async_mongodb/plugin.py:195-203 | Every path the loop adds to the parse cache is `basedir/n` for a listed entry `n` that is eligible: its format is `json` or `yaml`, its stem is requested, and no collection of that name existed before the loop. No other file is read. |
| `Fixtures.LoadEachOnlyRequested` | pytest_async_mongodb/plugin.py:195-203 | Every collection the loop creates is the stem of some listed entry with a supported format, and that stem is requested. |
| `Fixtures.LoadFixtures` | pytest_async_mongodb/plugin.py:187-203 | With `collections` equal to `None`, nothing changes. A directory that cannot be listed raises. Existing collections are kept, and the parse cache is only extended. Without an exception, every entry of the listed directory that is a supported fixture for a requested stem has its collection existing, whether created now or already there, or has an empty cached document list. |
| `Fixtures.LoadFixturesFirstFixture` | pytest_async_mongodb/plugin.py:187-222 | A requested collection that did not exist ends up holding, as inserted and in file order, the non-empty cached documents of the first supported fixture file for it in the resolved directory, unless the run raised. |
| `Fixtures.LoadFixturesReadsOnlyEligible` | pytest_async_mongodb/plugin.py:187-203 | A path that `load_fixtures` adds to the parse cache means the resolved directory could be listed. The path is that directory joined with a listed entry that is eligible: a supported format, a requested stem, and no collection of that name before the call. |
| `Fixtures.LoadFixturesOnlyRequested` | pytest_async_mongodb/plugin.py:187-203 | `load_fixtures` creates only collections that the resolved marker value requests. |
| `Fixtures.LoadFixture` | pytest_async_mongodb/plugin.py:206-222 | An unsupported format returns with no change at all. A cache hit parses nothing. A miss parses the file at `path` once and records it in `_cache`; no other path is added, and a failing parse raises before any insert. In the model, existing cache entries never change (see `Fixtures.LoadFixture` under Left out). Only the named collection changes, and on success it gains the cached documents in sequence order. It exists afterwards exactly when it existed before or the cached list is not empty. |
| `Fixtures.InsertAll` | pytest_async_mongodb/plugin.py:221-222 | Inserting the documents one by one appends them, with generated ids where missing, to the collection in sequence order. The collection is created only when there is at least one document. No other collection and no cache entry changes. |
| `Stores.WithIds` | pytest_async_mongodb/plugin.py:221-222 | Inserting a fixture's documents stores each one with the same fields, keeping its own `_id` or receiving a generated ObjectId. A fixture whose documents all carry an `_id` is stored verbatim. |
| `Stores.MissingIds` | pytest_async_mongodb/plugin.py:221-222 | The number of generated ids is zero exactly when every document carries an `_id`, and equals the document count exactly when none does. |
| `Fixtures.InsertDoc` | pytest_async_mongodb/plugin.py:222 | `db[c].insert_one(d)` appends the stored form of `d` to collection `c` and touches no other collection. |
| `Fixtures.LoadFixtureIntoAbsent` | pytest_async_mongodb/plugin.py:214-222 | Loading into a collection that does not exist leaves it holding exactly the fixture's documents, in file order. |
| `Fixtures.EligibleEntryLoadedInOrder` | pytest_async_mongodb/plugin.py:200-203 | After an eligible entry is visited, its collection holds exactly the cached documents of that file, in file order. |
| `Fixtures.SecondLoadHitsCache` | pytest_async_mongodb/plugin.py:214-219 | Once a file has been parsed, loading it again into any collection parses nothing more and, in the model, leaves the cache unchanged. |
| `Fixtures.AsyncMongodb` | pytest_async_mongodb/plugin.py:161-178 | A marker error raises before any state changes. A successful handle is database `pytest` of a client with the given id. With no marker, the handle is empty and nothing is parsed. Every collection in the handle was requested by the marker. The parse cache persists and only grows. When the resolved directory cannot be listed, the parse cache is left as it was. Every path added to the cache is the resolved directory joined with a listed entry that has a supported format and a stem the marker requests. On success, every supported fixture in the listed directory whose stem the marker requests has created its collection, or has an empty cached list. For the first such file of each requested stem, say `widgets.json` for `widgets`, a non-empty cached list means collection `widgets` holds exactly those documents, in file order, each as inserted. |
| `Paths.SplitExt` | pytest_async_mongodb/plugin.py:196 | The root and the extension concatenate back to the name. A non-empty extension starts with its only dot and contains no separator. |
| `Paths.SplitExtSimpleName` | pytest_async_mongodb/plugin.py:196 | `splitext("stem.ext")` gives `("stem", ".ext")` whenever `ext` has no dot and `stem` is not all dots. |
| `Paths.SplitExtNoDot` | pytest_async_mongodb/plugin.py:196 | A name without a dot has an empty extension. |
| `Paths.SplitExtHiddenName` | pytest_async_mongodb/plugin.py:196 | `splitext(".json")` has an empty extension. |
| `Paths.Basename` | pytest_async_mongodb/plugin.py:196 | The base name is the suffix after the last `/`. It contains no `/`, a name without `/` is its own base name, and when it is shorter than the path, the character just before it is a `/`. |
| `Paths.StripDots` | pytest_async_mongodb/plugin.py:197 | The stripped text neither starts nor ends with a dot, and it is no longer than the input. |
| `Paths.StripDotsExtension` | pytest_async_mongodb/plugin.py:197 | Stripping the dots of `.ext`, where `ext` has no dot, gives `ext`. |
| `Paths.Join` | pytest_async_mongodb/plugin.py:201 | The joined path ends with the entry name, and an absolute entry name replaces the directory. A relative entry name is placed under the directory: the path starts with the directory, and exactly one `/` is inserted between them unless the directory is empty or already ends with `/`. |
| `Paths.Contains` | pytest_async_mongodb/plugin.py:199 | `needle in hay` on strings holds exactly when `needle` occurs in `hay` at some position. |

## Left out

- The asynchronous adaptation (`wrapper`, `asyncio.coroutine`, `AsyncClassMethod.__getattribute__`, the `ASYNC_METHODS` lists) is left out. Every call is modelled as a plain synchronous call, which is what it amounts to once awaited.
- Query matching, `find`'s cursor, extra `find_one` arguments (projection, sort and so on), and the storage engine's internals are left out. They belong to mongomock. Matching is the `Matcher` parameter, and the order of results is the store's insertion order.
- `helpers.patch_datetime_awareness_in_document` is left out. The modelled values contain no datetimes, and on such values it changes nothing that the model observes.
- JSON and YAML decoding, `codecs.open`, and `os.listdir` are left out as file-system I/O and external parsers. They are the `parse` and `listdir` functions of an `Env`. The asymmetry between JSON's extended-type hook and plain YAML lives inside `parse`.
- Fixtures.LoadFixture: a decoded file that is not a sequence of documents counts as a failing parse and is not cached. In the source, a value such as an empty YAML file's `None` is cached first and fails only when iterated.
- Fixtures.LoadFixture: the write-back of generated ids into `_cache` is not modelled. The loop at pytest_async_mongodb/plugin.py:221-222 hands the cached documents themselves to `insert_one`, and mongomock's `insert_one`, like pymongo's, adds a generated `_id` to the document it is given. So in the source the first load of a file changes its cached documents, and a later load of the same file reuses those ids instead of generating new ones. The model keeps each cache entry as parsed and generates fresh ids on every load; its promise that cache entries never change holds for the model only.
- Stores.InsertOne: this is a simplified mongomock `insert_one`. A missing `_id` is filled from a counter standing in for ObjectId generation. Copying, validation, and any write-back of the generated id into the caller's document are not modelled. The counter is not checked against ids already stored: a fixture such as `[{"_id": Oid(0)}, {"name": "x"}]` loaded with the counter at 0 generates `Oid(0)` for the second document, and the model raises `DuplicateKey` where mongomock's fresh `ObjectId()` would load both documents. Fixtures whose documents carry no explicit ObjectId are unaffected.
- The storage a new `AsyncDatabase` starts with comes from mongomock, which is not part of this model. It is taken to be empty.
- Collection.Delete: whether reading `self.database.client._id` (pytest_async_mongodb/plugin.py:121) succeeds is not modelled. `AsyncMockMongoClient.__init__` (pytest_async_mongodb/plugin.py:149-151) does not call mongomock's constructor, so nothing in this code sets `_id`. The model assumes the read yields a number, the client id parameter. Were it to raise, the source would raise only after the deletion at pytest_async_mongodb/plugin.py:115 had already changed the store.
- Values.KeyOf: Python dict keys compare with `==`, so in the source ids such as `1` and `True` share one store key. In the model distinct values have distinct keys (`Values.KeyOfInjective`), so such ids occupy separate entries.
- Instance identity is value equality. A database mutated after `get_database` is not written back into the client's cache, because the fixture only uses the handle it returns.
- `pytest_addoption`, the fixture registration, and the reading of markers and configuration are test-runner glue. Their values are inputs to `AsyncMongodb`.
- Sharing `_cache` between threads or processes is a concurrency concern and is left out. The model covers one sequential run.
- Values.Value: floats, tuples, sets, frozensets and bytes are not modelled. A fixture document holding a float, such as JSON `{"price": 1.5}`, has no value in the model. A `collections` marker whose argument is a tuple, set or frozenset, such as `collections(('widgets',))` or `collections({'widgets'})`, cannot be written either. The source passes such an argument on as is (pytest_async_mongodb/plugin.py:167-171) and tests membership in it (pytest_async_mongodb/plugin.py:199). Only a list argument reaches the model as a set (`SetOf`), because the source turns it into one.
- Paths.Basename, Paths.SplitExt and Paths.Join follow POSIX `os.path`. Windows path rules are not modelled.

=== FILE: clients.dfy ===
/**
 * The client and database facades (`AsyncMockMongoClient`, `AsyncDatabase`): each
 * keeps a dictionary of the instances it has handed out, creates an instance the
 * first time a name is asked for and returns the stored one ever after.
 */
module Clients {
  import opened Values
  import opened Stores
  import opened Collection

  /**
   * The get-or-create discipline shared by `get_database` and `get_collection`:
   * `created` is the instance a construction would produce; it is used, and stored,
   * only when `name` has no entry yet.
   */
  function GetOrCreate<V>(cache: map<string, V>, name: string, created: V): (r: (map<string, V>, V))
    ensures name in r.0 && r.0[name] == r.1
    ensures r.0.Keys == cache.Keys + {name}
    ensures forall n :: n in cache ==> r.0[n] == cache[n]
    ensures name in cache ==> r.1 == cache[name]
    ensures name !in cache ==> r.1 == created
  {
    if name in cache then (cache, cache[name])
    else (cache[name := created], created)
  }

  /**
   * A second lookup of the same name returns the instance of the first and leaves
   * the cache as the first left it, whatever a construction would now produce.
   */
  lemma GetOrCreateIdempotent<V>(cache: map<string, V>, name: string, created: V, other: V)
    ensures GetOrCreate(GetOrCreate(cache, name, created).0, name, other) == GetOrCreate(cache, name, created)
  {
  }

  /**
   * An `AsyncDatabase`: its name, its client's id, the `_collections` cache of
   * facade instances, and the engine's storage (`stores`), where a collection
   * exists once something has been inserted into it.
   */
  datatype Database = Database(
    name: string,
    clientId: nat,
    collections: map<string, Handle>,
    stores: map<string, Store>)

  /** An `AsyncMockMongoClient`: its connection id and its `_databases` cache. */
  datatype Client = Client(id: nat, databases: map<string, Database>)

  function NewDatabase(clientId: nat, name: string): Database {
    Database(name, clientId, map[], map[])
  }

  /** The client constructor: no database has been handed out yet. */
  function NewClient(id: nat): Client {
    Client(id, map[])
  }

  /** Every cached collection handle belongs to this database, and every store is well formed. */
  predicate DbWf(db: Database) {
    && (forall n :: n in db.collections ==> db.collections[n] == Handle(n, db.name, db.clientId))
    && (forall n :: n in db.stores ==> Wf(db.stores[n]))
  }

  /** Every cached database is named by its key and belongs to this client. */
  predicate ClientWf(c: Client) {
    forall n :: n in c.databases ==>
      && c.databases[n].name == n
      && c.databases[n].clientId == c.id
      && DbWf(c.databases[n])
  }

  /**
   * `get_database(name)`: the database named `name` on this client, created empty
   * on first use; other cached databases are untouched and none is evicted.
   */
  function GetDatabase(c: Client, name: string): (r: (Client, Database))
    requires ClientWf(c)
    ensures ClientWf(r.0) && r.0.id == c.id
    ensures r.1.name == name && r.1.clientId == c.id && DbWf(r.1)
    ensures name in r.0.databases && r.0.databases[name] == r.1
    ensures r.0.databases.Keys == c.databases.Keys + {name}
    ensures forall n :: n in c.databases ==> r.0.databases[n] == c.databases[n]
    ensures name in c.databases ==> r == (c, c.databases[name])
    ensures name !in c.databases ==> r.1.collections == map[] && r.1.stores == map[]
  {
    var (m, db) := GetOrCreate(c.databases, name, NewDatabase(c.id, name));
    (c.(databases := m), db)
  }

  /** Asking a client twice for the same database yields the same database. */
  lemma GetDatabaseIdempotent(c: Client, name: string)
    requires ClientWf(c)
    ensures
      var (c1, db1) := GetDatabase(c, name);
      GetDatabase(c1, name) == (c1, db1)
  {
  }

  /**
   * `get_collection(name)` (also `db[name]`): the facade of collection `name`,
   * created on first use; it does not create the collection in storage.
   */
  function GetCollection(db: Database, name: string): (r: (Database, Handle))
    requires DbWf(db)
    ensures DbWf(r.0)
    ensures r.1 == Handle(name, db.name, db.clientId)
    ensures r.0 == db.(collections := r.0.collections)
    ensures r.0.collections.Keys == db.collections.Keys + {name}
    ensures forall n :: n in db.collections ==> r.0.collections[n] == db.collections[n]
    ensures name in db.collections ==> r.0 == db
  {
    var (m, h) := GetOrCreate(db.collections, name, Handle(name, db.name, db.clientId));
    (db.(collections := m), h)
  }

  /** Asking a database twice for the same collection yields the same facade. */
  lemma GetCollectionIdempotent(db: Database, name: string)
    requires DbWf(db)
    ensures
      var (db1, h1) := GetCollection(db, name);
      GetCollection(db1, name) == (db1, h1)
  {
  }

  /** `list_collection_names()`: the collections that exist in storage. */
  function CollectionNames(db: Database): set<string> {
    db.stores.Keys
  }

  /** `drop_collection(name)`: the collection's storage goes; nothing else changes. */
  function DropCollection(db: Database, name: string): (r: Database)
    requires DbWf(db)
    ensures DbWf(r)
    ensures CollectionNames(r) == CollectionNames(db) - {name}
    ensures r == db.(stores := r.stores)
    ensures forall n :: n in r.stores ==> r.stores[n] == db.stores[n]
  {
    db.(stores := db.stores - {name})
  }

  /** The documents of collection `name` in insertion order; none when it does not exist. */
  function ContentsOf(db: Database, name: string): seq<Doc>
    requires DbWf(db)
  {
    if name in db.stores then Contents(db.stores[name]) else []
  }
}

=== FILE: collection.dfy ===
/**
 * The collection facade (`AsyncCollection`): `find_one`, `delete_one` and the
 * internal `_delete`, each a plain call on the collection's store.
 */
module Collection {
  import opened Wrappers
  import opened Values
  import opened Stores

  /** An `AsyncCollection`: its name, its database's name and its client's id. */
  datatype Handle = Handle(name: string, database: string, clientId: nat)

  /** The raw wire-shaped result of `_delete`. `ok` is a float, `err` is `None` on success. */
  datatype RawDeleteResult = RawDeleteResult(connectionId: nat, n: nat, ok: real, err: Value)

  /** The engine's `DeleteResult(raw, acknowledged)`. */
  datatype DeleteResult = DeleteResult(raw: RawDeleteResult, acknowledged: bool) {
    function DeletedCount(): nat {
      raw.n
    }
  }

  /** True when no stored document matches `f`. */
  predicate NoMatch(s: Store, f: Filter, matches: Matcher) {
    forall k :: k in s.docs ==> !matches(f, s.docs[k])
  }

  /**
   * `find_one(filter)`: the first document in store order that matches the normalised
   * filter, or `None` when nothing matches; an empty result is not an error.
   */
  function FindOne(s: Store, filter: Value, matches: Matcher): (r: Option<Doc>)
    requires Wf(s)
    ensures r.None? <==> NoMatch(s, NormaliseFilter(filter), matches)
    ensures r.Some? ==>
      && r.value in s.docs.Values
      && matches(NormaliseFilter(filter), r.value)
      && forall j :: 0 <= j < |s.order| && matches(NormaliseFilter(filter), s.docs[s.order[j]]) ==>
           IdKey(r.value) in s.order[..j + 1]
  {
    var found := Find(s, NormaliseFilter(filter), matches);
    if found == [] then None
    else
      assert IdKeys(found)[0] == IdKey(found[0]);
      Some(found[0])
  }

  /** The keys `_delete` removes out of the matching keys `ks`. */
  function Removed(ks: seq<Key>, multi: bool): set<Key> {
    if multi then set k | k in ks
    else if ks == [] then {}
    else {ks[0]}
  }

  /** The preconditions the deletion loop needs: distinct stored ids. */
  predicate Deletable(s: Store, found: seq<Doc>) {
    && (forall i :: 0 <= i < |found| ==> HasId(found[i]))
    && Distinct(IdKeys(found))
    && (forall i :: 0 <= i < |found| ==> IdKey(found[i]) in s.docs)
  }

  lemma DeletableTail(s: Store, found: seq<Doc>)
    requires Wf(s) && found != [] && Deletable(s, found)
    ensures IdKeys(found[1..]) == IdKeys(found)[1..]
    ensures Deletable(Remove(s, IdKey(found[0])), found[1..])
  {
    var s1 := Remove(s, IdKey(found[0]));
    TailStaysStored(s.docs, s1.docs, found);
  }

  /** With distinct keys, the later documents stay deletable once the first one's key is gone. */
  lemma TailStaysStored(docs: map<Key, Doc>, docs': map<Key, Doc>, found: seq<Doc>)
    requires found != [] && forall i :: 0 <= i < |found| ==> HasId(found[i])
    requires Distinct(IdKeys(found)) && forall i :: 0 <= i < |found| ==> IdKey(found[i]) in docs
    requires docs' == docs - {IdKey(found[0])}
    ensures IdKeys(found[1..]) == IdKeys(found)[1..]
    ensures forall i :: 0 <= i < |found[1..]| ==> HasId(found[1..][i])
    ensures Distinct(IdKeys(found[1..]))
    ensures forall i :: 0 <= i < |found[1..]| ==> IdKey(found[1..][i]) in docs'
  {
    var ks := IdKeys(found);
    assert IdKeys(found[1..]) == ks[1..];
    forall i | 0 <= i < |found[1..]|
      ensures IdKey(found[1..][i]) in docs'
    {
      assert IdKey(found[1..][i]) == ks[i + 1] != ks[0];
    }
  }



  lemma SubtractStep(m: map<Key, Doc>, ks: seq<Key>)
    requires ks != []
    ensures {ks[0]} + (set k | k in ks[1..]) == set k | k in ks
    ensures (m - {ks[0]}) - (set k | k in ks[1..]) == m - (set k | k in ks)
  {
    var whole := set k | k in ks;
    var tail := set k | k in ks[1..];
    assert whole == {ks[0]} + tail;
    assert ((m - {ks[0]}) - tail).Keys == (m - whole).Keys;
  }

  /** The deletion loop with `multi` set: every found document's entry goes. */
  function RemoveEvery(s: Store, found: seq<Doc>): (r: (Store, nat))
    requires Wf(s) && Deletable(s, found)
    ensures Wf(r.0)
    ensures r.0.docs == s.docs - (set k | k in IdKeys(found))
    ensures r.0.order == Keep(s.order, set k | k in IdKeys(found))
    ensures r.1 == |s.docs| - |r.0.docs| == |found|
    decreases |found|
  {
    if found == [] then
      assert (set k | k in IdKeys(found)) == {};
      (s, 0)
    else
      var ks := IdKeys(found);
      var s1 := Remove(s, ks[0]);
      DeletableTail(s, found);
      var r := RemoveEvery(s1, found[1..]);
      SubtractStep(s.docs, ks);
      WithoutIsKeep(s.order, ks[0]);
      KeepKeep(s.order, {ks[0]}, set k | k in ks[1..]);
      (r.0, r.1 + 1)
  }

  /**
   * The deletion loop of `_delete`: removes the store entry of each found document
   * in turn, stopping after the first unless `multi`. Returns the store and the count.
   */
  function RemoveFound(s: Store, found: seq<Doc>, multi: bool): (r: (Store, nat))
    requires Wf(s) && Deletable(s, found)
    ensures Wf(r.0)
    ensures r.0.docs == s.docs - Removed(IdKeys(found), multi)
    ensures r.0.order == Keep(s.order, Removed(IdKeys(found), multi))
    ensures r.1 == |s.docs| - |r.0.docs|
    ensures r.1 == if multi then |found| else if found == [] then 0 else 1
  {
    if found == [] then
      assert Removed(IdKeys(found), multi) == {};
      (s, 0)
    else if !multi then RemoveFirst(s, found)
    else RemoveEvery(s, found)
  }

  /** The loop without `multi`: it breaks after deleting the first found document. */
  function RemoveFirst(s: Store, found: seq<Doc>): (r: (Store, nat))
    requires Wf(s) && Deletable(s, found) && found != []
    ensures Wf(r.0)
    ensures r.0.docs == s.docs - Removed(IdKeys(found), false)
    ensures r.0.order == Keep(s.order, Removed(IdKeys(found), false))
    ensures r.1 == |s.docs| - |r.0.docs| == 1
  {
    var k := IdKey(found[0]);
    assert Removed(IdKeys(found), false) == {k};
    WithoutIsKeep(s.order, k);
    (Remove(s, k), 1)
  }

  /**
   * `_delete`: a truthy `hint` raises, then a truthy `collation` raises; a `session`
   * never raises. Otherwise the matching documents are removed (only the first one
   * unless `multi`) and the wire result reports how many went.
   */
  function Delete(c: Handle, s: Store, filter: Value, collation: Value, hint: Value,
                  multi: bool, session: Value, matches: Matcher)
    : (r: Result<(Store, RawDeleteResult), Error>)
    requires Wf(s)
    ensures Truthy(hint) ==> r == Failure(NotImplemented("hint"))
    ensures !Truthy(hint) && Truthy(collation) ==> r == Failure(NotImplemented("collation"))
    ensures r.Success? <==> !Truthy(hint) && !Truthy(collation)
    ensures r.Success? ==>
      var gone := Removed(MatchingKeys(s, NormaliseFilter(filter), matches), multi);
      && Wf(r.value.0)
      && r.value.0.docs == s.docs - gone
      && r.value.0.order == Keep(s.order, gone)
      && r.value.1.n == |s.docs| - |r.value.0.docs|
    ensures r.Success? ==>
      r.value.1.connectionId == c.clientId && r.value.1.ok == 1.0 && r.value.1.err == Null
  {
    if Truthy(hint) then Failure(NotImplemented("hint"))
    else if Truthy(collation) then Failure(NotImplemented("collation"))
    else
      // `session` is only used to build an exception that is never raised.
      var found := Find(s, NormaliseFilter(filter), matches);
      var (s', n) := RemoveFound(s, found, multi);
      Success((s', RawDeleteResult(c.clientId, n, 1.0, Null)))
  }

  /** `delete_one`: `_delete` without `multi`, wrapped as an acknowledged result. */
  function DeleteOne(c: Handle, s: Store, filter: Value, collation: Value, hint: Value,
                     session: Value, matches: Matcher)
    : (r: Result<(Store, DeleteResult), Error>)
    requires Wf(s)
    ensures r.Failure? <==> Truthy(hint) || Truthy(collation)
    ensures r.Success? ==>
      && Wf(r.value.0)
      && r.value.1.acknowledged
      && r.value.1.DeletedCount() == |s.docs| - |r.value.0.docs|
      && (r.value.1.DeletedCount() == 0 <==> NoMatch(s, NormaliseFilter(filter), matches))
      && r.value.1.DeletedCount() <= 1
    ensures r.Success? ==>
      var gone := Removed(MatchingKeys(s, NormaliseFilter(filter), matches), false);
      r.value.0.docs == s.docs - gone && r.value.0.order == Keep(s.order, gone)
    ensures r.Success? && NoMatch(s, NormaliseFilter(filter), matches) ==> r.value.0 == s
    ensures r.Success? ==>
      r.value.1.raw.connectionId == c.clientId && r.value.1.raw.ok == 1.0 && r.value.1.raw.err == Null
  {
    var raw :- Delete(c, s, filter, collation, hint, false, session, matches);
    Success((raw.0, DeleteResult(raw.1, true)))
  }

  /** `find_one()` and `find_one(None)` query with the empty filter. */
  lemma FindOneNoneIsMatchAll(s: Store, matches: Matcher)
    requires Wf(s)
    ensures FindOne(s, Null, matches) == FindOne(s, Dict(map[]), matches)
  {
  }

  /** `find_one(v)` for a value that is not a mapping looks `v` up as an `_id`. */
  lemma FindOneIdShorthand(s: Store, v: Value, matches: Matcher)
    requires Wf(s) && v != Null && !IsMapping(v)
    ensures FindOne(s, v, matches) == FindOne(s, Dict(map["_id" := v]), matches)
  {
  }

  /** On an empty collection `find_one` answers `None` for every filter. */
  lemma FindOneOnEmpty(filter: Value, matches: Matcher)
    ensures Wf(Empty)
    ensures FindOne(Empty, filter, matches) == None
  {
  }

  /** Supplying a session changes nothing: it neither raises nor alters the result. */
  lemma DeleteIgnoresSession(c: Handle, s: Store, filter: Value, collation: Value, hint: Value,
                             multi: bool, session: Value, matches: Matcher)
    requires Wf(s)
    ensures Delete(c, s, filter, collation, hint, multi, session, matches)
         == Delete(c, s, filter, collation, hint, multi, Null, matches)
  {
  }

  /**
   * `delete_one` removes exactly the first matching document in store order and
   * leaves every other entry as it was.
   */
  lemma DeleteOneRemovesFirstMatch(c: Handle, s: Store, filter: Value, matches: Matcher, k: Key)
    requires Wf(s)
    requires k in s.docs && matches(NormaliseFilter(filter), s.docs[k])
    requires forall j :: 0 <= j < |s.order| && s.order[j] != k ==>
      (matches(NormaliseFilter(filter), s.docs[s.order[j]]) ==> k in s.order[..j])
    ensures DeleteOne(c, s, filter, Null, Null, Null, matches).Success?
    ensures DeleteOne(c, s, filter, Null, Null, Null, matches).value.0.docs == s.docs - {k}
    ensures DeleteOne(c, s, filter, Null, Null, Null, matches).value.0.order == Without(s.order, k)
    ensures DeleteOne(c, s, filter, Null, Null, Null, matches).value.1.DeletedCount() == 1
  {
    FirstMatchRemoved(s, NormaliseFilter(filter), matches, k);
    var d := Delete(c, s, filter, Null, Null, false, Null, matches);
    assert d.Success? && d.value.0.order == Keep(s.order, {k});
    WithoutIsKeep(s.order, k);
    assert DeleteOne(c, s, filter, Null, Null, Null, matches).value.0 == d.value.0;
  }

  /** `delete_one` picks `k` when `k` matches and comes before every other match. */
  lemma FirstMatchRemoved(s: Store, f: Filter, matches: Matcher, k: Key)
    requires Wf(s)
    requires k in s.docs && matches(f, s.docs[k])
    requires forall j :: 0 <= j < |s.order| && s.order[j] != k ==>
      (matches(f, s.docs[s.order[j]]) ==> k in s.order[..j])
    ensures Removed(MatchingKeys(s, f, matches), false) == {k}
  {
    var ks := MatchingKeys(s, f, matches);
    assert k in ks;
  }

  /** After a successful `_delete` with `multi`, nothing left in the store matches. */
  lemma DeleteManyLeavesNoMatch(c: Handle, s: Store, filter: Value, matches: Matcher)
    requires Wf(s)
    ensures
      var r := Delete(c, s, filter, Null, Null, true, Null, matches);
      && r.Success?
      && NoMatch(r.value.0, NormaliseFilter(filter), matches)
      && r.value.1.n == |MatchingKeys(s, NormaliseFilter(filter), matches)|
  {
    var f := NormaliseFilter(filter);
    var ks := MatchingKeys(s, f, matches);
    var r := Delete(c, s, filter, Null, Null, true, Null, matches);
    assert r.value.0.docs == s.docs - (set k | k in ks);
    DistinctCard(ks);
  }

  lemma DistinctCard(ks: seq<Key>)
    requires Distinct(ks)
    ensures |set k | k in ks| == |ks|
  {
    if ks != [] {
      assert (set k | k in ks) == {ks[0]} + (set k | k in ks[1..]);
      DistinctCard(ks[1..]);
    }
  }
}

=== FILE: fixtures.dfy ===
/**
 * The fixture pipeline: resolving the `collections` marker and the fixture
 * directory, choosing the directory entries to load, `load_fixture` with its
 * process-wide parse cache, `clean_database`, and the `async_mongodb` fixture
 * that ties them together.
 */
module Fixtures {
  import opened Wrappers
  import opened Values
  import opened Stores
  import opened Collection
  import opened Clients
  import opened Paths

  /**
   * What `load_fixtures` receives as `collections`: the set made from a list
   * marker argument, or any other argument as is (`AsIs(Null)` is Python's `None`).
   */
  datatype Data = SetOf(items: set<Value>) | AsIs(v: Value)

  const NoData: Data := AsIs(Null)

  predicate Hashable(v: Value) {
    !v.List? && !v.Dict?
  }

  /**
   * Marker resolution in `async_mongodb`: no marker gives `None`; otherwise the
   * first argument, a list becoming the set of its items (which must be hashable).
   */
  function ResolveMarker(marker: Option<seq<Value>>): (r: Result<Data, Error>)
    ensures marker.None? ==> r == Success(NoData)
    ensures marker == Some([]) ==> r == Failure(IndexError)
    ensures marker.Some? && marker.value != [] && marker.value[0].List? ==>
      && (r.Success? <==> forall x :: x in marker.value[0].items ==> Hashable(x))
      && (r.Success? ==> r.value.SetOf? && forall x :: x in r.value.items <==> x in marker.value[0].items)
    ensures marker.Some? && marker.value != [] && !marker.value[0].List? ==>
      r == Success(AsIs(marker.value[0]))
  {
    match marker
    case None => Success(NoData)
    case Some(args) =>
      if args == [] then Failure(IndexError)
      else if args[0].List? then
        if forall x :: x in args[0].items ==> Hashable(x) then Success(SetOf(set x | x in args[0].items))
        else Failure(TypeError("unhashable type"))
      else Success(AsIs(args[0]))
  }

  /** `option_dir or ini_dir`: the command-line directory when non-empty, else the ini one. */
  function ResolveDir(option: Option<string>, ini: string): (dir: string)
    ensures dir == ini || (option.Some? && dir == option.value)
    ensures option.Some? && option.value != "" ==> dir == option.value
    ensures option.None? || option.value == "" ==> dir == ini
  {
    if option.Some? && option.value != "" then option.value else ini
  }

  /** The collection a directory entry would seed: its file name without extension. */
  function Stem(name: string): string {
    SplitExt(Basename(name)).0
  }

  /** The entry's extension with its dots stripped. */
  function Format(name: string): string {
    StripDots(SplitExt(Basename(name)).1)
  }

  /**
   * How an entry splits: the stem is a prefix of the file name that stops before a
   * dot, and the file name is the stem, or the stem, one dot and the format. So an
   * entry has a supported format exactly when its file name is its stem followed by
   * `.json` or `.yaml`.
   */
  lemma EntryParts(name: string)
    ensures '/' !in Stem(name) && Stem(name) <= Basename(name)
    ensures Stem(name) == Basename(name) || Basename(name)[|Stem(name)|] == '.'
    ensures '.' !in Format(name) && '/' !in Format(name)
    ensures Basename(name) == Stem(name) || Basename(name) == Stem(name) + "." + Format(name)
    ensures Supported(Format(name)) <==>
      Basename(name) == Stem(name) + ".json" || Basename(name) == Stem(name) + ".yaml"
  {
    var b := Basename(name);
    var p := SplitExt(b);
    assert Stem(name) == p.0 && Format(name) == StripDots(p.1);
    if p.1 != [] {
      ExtensionFormat(p.1);
    } else {
      assert StripDots(p.1) == [];
    }
    SplitParts(b, p.0, p.1, Format(name));
  }

  /** The same facts for a file name `b` split into `stem + ext`, with `f` the extension's text. */
  lemma SplitParts(b: string, stem: string, ext: string, f: string)
    requires stem + ext == b && '/' !in b
    requires ext == [] ==> f == []
    requires ext != [] ==> ext == "." + f && '.' !in f
    ensures '/' !in stem && stem <= b
    ensures stem == b || b[|stem|] == '.'
    ensures '.' !in f && '/' !in f
    ensures b == stem || b == stem + "." + f
    ensures Supported(f) <==> b == stem + ".json" || b == stem + ".yaml"
  {
    assert b[..|stem|] == stem;
    if ext != [] {
      assert b == stem + "." + f;
      assert b[|stem| + 1..] == f;
      SupportedSuffix(b, stem, f);
    }
  }

  /** Behind `stem` and a dot, the format is `json` or `yaml` exactly when the name ends so. */
  lemma SupportedSuffix(b: string, stem: string, f: string)
    requires b == stem + "." + f
    ensures Supported(f) <==> b == stem + ".json" || b == stem + ".yaml"
  {
    assert b[|stem|..] == "." + f;
    if b == stem + ".json" {
      assert b[|stem|..] == ".json";
      assert f == ("." + f)[1..] == ".json"[1..];
    }
    if b == stem + ".yaml" {
      assert b[|stem|..] == ".yaml";
      assert f == ("." + f)[1..] == ".yaml"[1..];
    }
  }

  /** An extension `.ext` from `splitext` has the format `ext`. */
  lemma ExtensionFormat(ext: string)
    requires ext != [] && ext[0] == '.' && '.' !in ext[1..] && '/' !in ext
    ensures StripDots(ext) == ext[1..] && ext == "." + ext[1..] && '/' !in ext[1..]
  {
    assert ext == "." + ext[1..];
    StripDotsExtension(ext[1..]);
  }

  /** The two formats `load_fixture` knows, compared case-sensitively. */
  predicate Supported(format: string) {
    format == "json" || format == "yaml"
  }

  /** For a plain `stem.ext` entry the stem and the format are exactly `stem` and `ext`. */
  lemma NameParts(stem: string, ext: string)
    requires '/' !in stem && '/' !in ext && '.' !in ext && !AllDots(stem)
    ensures Stem(stem + "." + ext) == stem
    ensures Format(stem + "." + ext) == ext
  {
    SplitExtSimpleName(stem, ext);
    StripDotsExtension(ext);
  }

  /** `widgets.json` seeds collection `widgets` from a JSON file. */
  lemma JsonEntry()
    ensures Stem("widgets.json") == "widgets" && Format("widgets.json") == "json"
  {
    assert "widgets"[0] == 'w';
    assert "widgets" + "." + "json" == "widgets.json";
    NameParts("widgets", "json");
  }

  /** The extension test is case-sensitive: `widgets.JSON` is skipped. */
  lemma UpperCaseEntrySkipped()
    ensures !Supported(Format("widgets.JSON"))
  {
    assert "widgets"[0] == 'w';
    assert "widgets" + "." + "JSON" == "widgets.JSON";
    NameParts("widgets", "JSON");
  }

  /** Only the exact `yaml` spelling counts: `widgets.yml` is skipped. */
  lemma YmlEntrySkipped()
    ensures !Supported(Format("widgets.yml"))
  {
    assert "widgets"[0] == 'w';
    assert "widgets" + "." + "yml" == "widgets.yml";
    NameParts("widgets", "yml");
  }

  /** A leading-dot entry such as `.json` has no extension and is skipped. */
  lemma HiddenEntrySkipped()
    ensures !Supported(Format(".json"))
  {
    assert '/' !in ".json";
    assert Basename(".json") == ".json";
    SplitExtHiddenName();
    assert SplitExt(Basename(".json")).1 == [];
    assert StripDots([]) == [];
    assert Format(".json") == [];
  }

  /**
   * The collection names a `Data` value asks for: members of the set, substrings of
   * a string, items of a list or keys of a dict, and nothing when it is falsy.
   */
  ghost predicate Requested(data: Data, stem: string) {
    match data
    case SetOf(items) => Str(stem) in items
    case AsIs(v) =>
      match v
      case Str(s) => s != "" && IsSubstring(stem, s)
      case List(items) => Str(stem) in items
      case Dict(fields) => stem in fields
      case _ => false
  }

  /**
   * `fixtures and collection in fixtures`: answers whether `stem` is requested, and
   * raises a TypeError when `in` is applied to a truthy value that is not a container.
   */
  function Select(data: Data, stem: string): (r: Result<bool, Error>)
    ensures r.Success? ==> (r.value <==> Requested(data, stem))
    ensures r.Failure? <==>
      data.AsIs? && Truthy(data.v) && !data.v.Str? && !data.v.List? && !data.v.Dict?
  {
    match data
    case SetOf(items) => Success(items != {} && Str(stem) in items)
    case AsIs(v) =>
      if !Truthy(v) then Success(false)
      else
        match v
        case Str(s) => Success(Contains(s, stem))
        case List(items) => Success(Str(stem) in items)
        case Dict(fields) => Success(stem in fields)
        case _ => Failure(TypeError("argument is not iterable"))
  }

  /**
   * The state that outlives a test: the parse cache `_cache` (path to documents),
   * the log of the paths actually parsed, and the ObjectId generator.
   */
  datatype Process = Process(cache: map<string, seq<Doc>>, parsed: seq<string>, nextOid: nat)

  /** Each cached path was parsed exactly once, and only cached paths were parsed. */
  predicate ProcWf(p: Process) {
    && Distinct(p.parsed)
    && (forall x :: x in p.parsed ==> x in p.cache)
    && (forall x :: x in p.cache ==> x in p.parsed)
  }

  /** The cache only gains entries, an entry never changes, and the parse log only grows. */
  predicate Extends(p: Process, p': Process) {
    && (forall x :: x in p.cache ==> x in p'.cache && p'.cache[x] == p.cache[x])
    && p.parsed <= p'.parsed
    && p.nextOid <= p'.nextOid
  }

  datatype World = World(db: Database, proc: Process)

  predicate WorldWf(w: World) {
    DbWf(w.db) && ProcWf(w.proc)
  }

  /** The state reached and, if a step raised, the exception that aborted the rest. */
  datatype Outcome = Outcome(world: World, failure: Option<Error>)

  /**
   * The file system: `listdir` lists a directory (`None` when it cannot), `parse`
   * opens a file and decodes it in the given format (`None` when that fails).
   */
  datatype Env = Env(listdir: string -> Option<seq<string>>, parse: (string, string) -> Option<seq<Doc>>)

  /** Only collection `c` may change; cached facades, name and client stay. */
  predicate Frame(db: Database, db': Database, c: string) {
    && db'.name == db.name
    && db'.clientId == db.clientId
    && (forall n :: n in db.collections ==> n in db'.collections && db'.collections[n] == db.collections[n])
    && (forall n :: n != c && n in db.stores ==> n in db'.stores && db'.stores[n] == db.stores[n])
    && (forall n :: n != c && n in db'.stores ==> n in db.stores)
  }

  lemma AppendStep(ok: bool, a: seq<Doc>, b: seq<Doc>, c: seq<Doc>, x: Doc, ys: seq<Doc>)
    requires b == a + [x]
    requires ok ==> c == b + ys
    ensures ok ==> c == a + ([x] + ys)
  {
  }

  lemma FrameTrans(a: Database, b: Database, c: Database, n: string)
    requires Frame(a, b, n) && Frame(b, c, n)
    ensures Frame(a, c, n)
  {
  }

  /** Collections that already exist keep their contents; new ones may appear. */
  predicate Preserves(db: Database, db': Database) {
    && db'.name == db.name
    && db'.clientId == db.clientId
    && (forall n :: n in db.collections ==> n in db'.collections && db'.collections[n] == db.collections[n])
    && (forall n :: n in db.stores ==> n in db'.stores && db'.stores[n] == db.stores[n])
  }

  /** `db[c].insert_one(d)`. */
  function InsertDoc(w: World, c: string, d: Doc): (o: Outcome)
    requires WorldWf(w)
    ensures WorldWf(o.world)
    ensures o.world.proc == w.proc.(nextOid := o.world.proc.nextOid)
    ensures Frame(w.db, o.world.db, c)
    ensures o.failure.None? ==> ContentsOf(o.world.db, c) == ContentsOf(w.db, c) + [WithId(d, w.proc.nextOid)]
    ensures o.failure.None? ==> c in o.world.db.stores
    ensures o.failure.None? ==> o.world.proc.nextOid == w.proc.nextOid + (if HasId(d) then 0 else 1)
    ensures o.failure.Some? ==> o.world.proc == w.proc
  {
    var (db1, _) := GetCollection(w.db, c);
    var s := if c in db1.stores then db1.stores[c] else Empty;
    match InsertOne(s, d, w.proc.nextOid)
    case Failure(e) => Outcome(w.(db := db1), Some(e))
    case Success((s', next)) =>
      Outcome(World(db1.(stores := db1.stores[c := s']), w.proc.(nextOid := next)), None)
  }

  /**
   * The insertion loop of `load_fixture`: the documents go in one by one, in
   * sequence order, stopping at the first insert that raises.
   */
  function InsertAll(w: World, c: string, docs: seq<Doc>): (o: Outcome)
    requires WorldWf(w)
    ensures WorldWf(o.world)
    ensures o.world.proc == w.proc.(nextOid := o.world.proc.nextOid)
    ensures w.proc.nextOid <= o.world.proc.nextOid
    ensures Frame(w.db, o.world.db, c)
    ensures o.failure.None? ==>
      ContentsOf(o.world.db, c) == ContentsOf(w.db, c) + WithIds(docs, w.proc.nextOid)
    ensures o.failure.None? ==> o.world.proc.nextOid == w.proc.nextOid + MissingIds(docs)
    ensures o.failure.None? ==> (c in o.world.db.stores <==> c in w.db.stores || docs != [])
    decreases |docs|
  {
    if docs == [] then Outcome(w, None)
    else
      var o1 := InsertDoc(w, c, docs[0]);
      if o1.failure.Some? then o1
      else
        var o2 := InsertAll(o1.world, c, docs[1..]);
        FrameTrans(w.db, o1.world.db, o2.world.db, c);
        AppendStep(o2.failure.None?, ContentsOf(w.db, c), ContentsOf(o1.world.db, c),
                   ContentsOf(o2.world.db, c), WithId(docs[0], w.proc.nextOid),
                   WithIds(docs[1..], o1.world.proc.nextOid));
        o2
  }

  /**
   * `load_fixture`: an unsupported format does nothing; otherwise the documents come
   * from `_cache[path]` when present, else from parsing the file once and caching
   * the result, and are then inserted into collection `collection` in order.
   */
  function LoadFixture(w: World, collection: string, path: string, format: string, env: Env): (o: Outcome)
    requires WorldWf(w)
    ensures WorldWf(o.world)
    ensures Extends(w.proc, o.world.proc)
    ensures Frame(w.db, o.world.db, collection)
    ensures !Supported(format) ==> o == Outcome(w, None)
    ensures Supported(format) ==>
      (path in o.world.proc.cache <==> path in w.proc.cache || env.parse(path, format).Some?)
    ensures forall x :: x in o.world.proc.cache && x !in w.proc.cache ==> x == path
    ensures path in w.proc.cache ==> o.world.proc.parsed == w.proc.parsed
    ensures Supported(format) && path !in w.proc.cache && env.parse(path, format).Some? ==>
      && o.world.proc.parsed == w.proc.parsed + [path]
      && o.world.proc.cache[path] == env.parse(path, format).value
    ensures Supported(format) && path !in w.proc.cache && env.parse(path, format).None? ==>
      o == Outcome(w, Some(ReadError(path)))
    ensures Supported(format) && o.failure.None? ==> path in o.world.proc.cache
    ensures Supported(format) && o.failure.None? ==>
      (collection in o.world.db.stores <==> collection in w.db.stores || o.world.proc.cache[path] != [])
    ensures Supported(format) && o.failure.None? ==>
      ContentsOf(o.world.db, collection)
        == ContentsOf(w.db, collection) + WithIds(o.world.proc.cache[path], w.proc.nextOid)
  {
    if !Supported(format) then Outcome(w, None)
    else if path in w.proc.cache then InsertAll(w, collection, w.proc.cache[path])
    else
      match env.parse(path, format)
      case None => Outcome(w, Some(ReadError(path)))
      case Some(docs) =>
        assert path !in w.proc.parsed;
        var proc := w.proc.(cache := w.proc.cache[path := docs], parsed := w.proc.parsed + [path]);
        InsertAll(w.(proc := proc), collection, docs)
  }

  /**
   * An entry is loaded when its format is supported, its stem is requested, and no
   * collection of that name exists yet.
   */
  ghost predicate Eligible(db: Database, data: Data, name: string) {
    && Supported(Format(name))
    && Requested(data, Stem(name))
    && Stem(name) !in CollectionNames(db)
  }

  /**
   * One iteration of the `load_fixtures` loop: a TypeError from the selection test
   * aborts; an eligible entry is loaded from `basedir/name`; any other is skipped.
   */
  function VisitFile(w: World, data: Data, basedir: string, name: string, env: Env): (o: Outcome)
    requires WorldWf(w)
    ensures WorldWf(o.world)
    ensures Extends(w.proc, o.world.proc)
    ensures Preserves(w.db, o.world.db)
    ensures forall c :: c in o.world.db.stores && c !in w.db.stores ==>
      c == Stem(name) && Eligible(w.db, data, name)
    ensures forall x :: x in o.world.proc.cache && x !in w.proc.cache ==>
      x == Join(basedir, name) && Eligible(w.db, data, name)
    ensures Select(data, Stem(name)).Failure? ==> o == Outcome(w, Some(Select(data, Stem(name)).error))
    ensures Select(data, Stem(name)).Success? ==>
      && (Eligible(w.db, data, name) ==> o == LoadFixture(w, Stem(name), Join(basedir, name), Format(name), env))
      && (!Eligible(w.db, data, name) ==> o == Outcome(w, None))
  {
    var collection := Stem(name);
    var format := Format(name);
    var supported := Supported(format);
    match Select(data, collection)
    case Failure(e) => Outcome(w, Some(e))
    case Success(selected) =>
      if selected && supported && collection !in CollectionNames(w.db) then
        LoadFixture(w, collection, Join(basedir, name), format, env)
      else Outcome(w, None)
  }

  /**
   * Entry `name` of `basedir` has had its effect: its collection exists, or its
   * cached fixture is empty and so had nothing to insert.
   */
  predicate Seeded(w: World, basedir: string, name: string) {
    || Stem(name) in w.db.stores
    || (Join(basedir, name) in w.proc.cache && w.proc.cache[Join(basedir, name)] == [])
  }

  /** A requested entry with a supported format is seeded once its visit has not raised. */
  lemma VisitSeeds(w: World, data: Data, basedir: string, name: string, env: Env)
    requires WorldWf(w)
    ensures
      var o := VisitFile(w, data, basedir, name, env);
      o.failure.None? && Supported(Format(name)) && Requested(data, Stem(name)) ==> Seeded(o.world, basedir, name)
  {
    var o := VisitFile(w, data, basedir, name, env);
    if o.failure.None? && Supported(Format(name)) && Requested(data, Stem(name)) && Eligible(w.db, data, name) {
      assert o == LoadFixture(w, Stem(name), Join(basedir, name), Format(name), env);
    }
  }

  /** Later steps keep collections and cache entries, so a seeded entry stays seeded. */
  lemma SeededStays(a: World, b: World, basedir: string, name: string)
    requires Preserves(a.db, b.db) && Extends(a.proc, b.proc)
    ensures Seeded(a, basedir, name) ==> Seeded(b, basedir, name)
  {
  }

  /** The `load_fixtures` loop over the directory listing, in listing order. */
  function LoadEach(w: World, data: Data, basedir: string, names: seq<string>, env: Env): (o: Outcome)
    requires WorldWf(w)
    ensures WorldWf(o.world)
    ensures Extends(w.proc, o.world.proc)
    ensures Preserves(w.db, o.world.db)
    ensures o.failure.None? ==>
      forall n :: n in names && Supported(Format(n)) && Requested(data, Stem(n)) ==> Seeded(o.world, basedir, n)
    decreases |names|
  {
    if names == [] then Outcome(w, None)
    else
      var o1 := VisitFile(w, data, basedir, names[0], env);
      if o1.failure.Some? then o1
      else
        var o2 := LoadEach(o1.world, data, basedir, names[1..], env);
        VisitSeeds(w, data, basedir, names[0], env);
        SeededStays(o1.world, o2.world, basedir, names[0]);
        assert forall n :: n in names ==> n == names[0] || n in names[1..];
        o2
  }

  /**
   * `load_fixtures`: nothing at all when `collections` is `None`; otherwise every
   * entry of the resolved directory is visited, and a directory that cannot be
   * listed raises.
   */
  function LoadFixtures(w: World, data: Data, optionDir: Option<string>, iniDir: string, env: Env): (o: Outcome)
    requires WorldWf(w)
    ensures WorldWf(o.world)
    ensures Extends(w.proc, o.world.proc)
    ensures Preserves(w.db, o.world.db)
    ensures data == NoData ==> o == Outcome(w, None)
    ensures data != NoData && env.listdir(ResolveDir(optionDir, iniDir)).None? ==>
      o == Outcome(w, Some(DirectoryError(ResolveDir(optionDir, iniDir))))
    ensures o.failure.None? && env.listdir(ResolveDir(optionDir, iniDir)).Some? ==>
      forall n :: n in env.listdir(ResolveDir(optionDir, iniDir)).value && Supported(Format(n)) && Requested(data, Stem(n)) ==>
        Seeded(o.world, ResolveDir(optionDir, iniDir), n)
  {
    if data == NoData then Outcome(w, None)
    else
      var basedir := ResolveDir(optionDir, iniDir);
      match env.listdir(basedir)
      case None => Outcome(w, Some(DirectoryError(basedir)))
      case Some(names) => LoadEach(w, data, basedir, names, env)
  }

  /**
   * A loaded entry seeds a collection that did not exist, so afterwards that
   * collection holds exactly the fixture's documents, in file order.
   */
  lemma EligibleEntryLoadedInOrder(w: World, data: Data, basedir: string, name: string, env: Env)
    requires WorldWf(w)
    ensures
      var o := VisitFile(w, data, basedir, name, env);
      Eligible(w.db, data, name) && o.failure.None? ==>
        && Join(basedir, name) in o.world.proc.cache
        && (Stem(name) in o.world.db.stores <==> o.world.proc.cache[Join(basedir, name)] != [])
        && ContentsOf(o.world.db, Stem(name))
             == WithIds(o.world.proc.cache[Join(basedir, name)], w.proc.nextOid)
  {
    if Eligible(w.db, data, name) {
      VisitEligible(w, data, basedir, name, env);
      LoadFixtureIntoAbsent(w, Stem(name), Join(basedir, name), Format(name), env);
    }
  }

  lemma VisitEligible(w: World, data: Data, basedir: string, name: string, env: Env)
    requires WorldWf(w)
    ensures Eligible(w.db, data, name) ==>
      VisitFile(w, data, basedir, name, env) == LoadFixture(w, Stem(name), Join(basedir, name), Format(name), env)
  {
    if Eligible(w.db, data, name) {
      assert Select(data, Stem(name)).Success?;
    }
  }

  lemma LoadFixtureIntoAbsent(w: World, c: string, path: string, format: string, env: Env)
    requires WorldWf(w) && Supported(format) && c !in w.db.stores
    ensures
      var o := LoadFixture(w, c, path, format, env);
      o.failure.None? ==> ContentsOf(o.world.db, c) == WithIds(o.world.proc.cache[path], w.proc.nextOid)
  {
    assert ContentsOf(w.db, c) == [];
  }

  /** Some listed entry has stem `c` and a supported format. */
  predicate Listed(names: seq<string>, c: string) {
    exists n :: n in names && Stem(n) == c && Supported(Format(n))
  }

  /**
   * Every collection the loop creates was asked for: some listed entry has it as
   * stem, a supported format, and `data` requests it.
   */
  lemma {:induction false} LoadEachOnlyRequested(w: World, data: Data, basedir: string, names: seq<string>, env: Env)
    requires WorldWf(w)
    ensures forall c :: c in LoadEach(w, data, basedir, names, env).world.db.stores && c !in w.db.stores ==>
      Listed(names, c) && Requested(data, c)
    decreases |names|
  {
    if names != [] {
      var o1 := VisitFile(w, data, basedir, names[0], env);
      if o1.failure.None? {
        LoadEachOnlyRequested(o1.world, data, basedir, names[1..], env);
        var o := LoadEach(w, data, basedir, names, env);
        assert o == LoadEach(o1.world, data, basedir, names[1..], env);
        forall c | c in o.world.db.stores && c !in w.db.stores
          ensures Listed(names, c) && Requested(data, c)
        {
          if c in o1.world.db.stores {
            assert names[0] in names;
          } else {
            var n :| n in names[1..] && Stem(n) == c && Supported(Format(n));
            assert n in names;
          }
        }
      }
    }
  }

  /**
   * The loop reads only files of entries that were eligible: every path it adds to
   * `_cache` is `basedir/n` for a listed entry `n` with a supported format and a
   * requested stem whose collection did not exist.
   */
  lemma {:induction false} LoadEachReadsOnlyEligible(w: World, data: Data, basedir: string, names: seq<string>, env: Env, x: string)
    requires WorldWf(w)
    requires x in LoadEach(w, data, basedir, names, env).world.proc.cache && x !in w.proc.cache
    ensures exists n :: n in names && x == Join(basedir, n) && Eligible(w.db, data, n)
    decreases |names|
  {
    var o1 := VisitFile(w, data, basedir, names[0], env);
    LoadEachUnfold(w, data, basedir, names, env);
    if x in o1.world.proc.cache {
      assert names[0] in names;
    } else {
      LoadEachReadsOnlyEligible(o1.world, data, basedir, names[1..], env, x);
      var n :| n in names[1..] && x == Join(basedir, n) && Eligible(o1.world.db, data, n);
      assert n in names;
    }
  }

  /** `names[i]` has a supported format, and no earlier entry is a fixture for the same stem. */
  predicate FirstFor(names: seq<string>, i: int) {
    && 0 <= i < |names|
    && Supported(Format(names[i]))
    && !Listed(names[..i], Stem(names[i]))
  }

  /**
   * The collection holds the documents `docs` in their order, each as inserted:
   * unchanged when it has an `_id`, with a generated one otherwise.
   */
  predicate HoldsFixture(db: Database, c: string, docs: seq<Doc>)
    requires DbWf(db)
  {
    AllInserted(docs, ContentsOf(db, c))
  }

  /** When the run succeeded and the cached fixture at `path` is not empty, `c` holds it. */
  ghost predicate SeedsFixture(o: Outcome, c: string, path: string)
    requires DbWf(o.world.db)
  {
    o.failure.None? && path in o.world.proc.cache && o.world.proc.cache[path] != [] ==>
      HoldsFixture(o.world.db, c, o.world.proc.cache[path])
  }

  /**
   * The loop seeds a requested collection that did not exist from the first listed
   * fixture for it: when the run succeeds and that file's documents are not empty,
   * the collection ends up holding exactly them, in file order, each as inserted.
   */
  lemma {:induction false} LoadEachFirstFixture(w: World, data: Data, basedir: string, names: seq<string>, env: Env, i: int)
    requires WorldWf(w)
    requires FirstFor(names, i) && Requested(data, Stem(names[i])) && Stem(names[i]) !in w.db.stores
    ensures SeedsFixture(LoadEach(w, data, basedir, names, env), Stem(names[i]), Join(basedir, names[i]))
    decreases |names|
  {
    var o1 := VisitFile(w, data, basedir, names[0], env);
    LoadEachUnfold(w, data, basedir, names, env);
    if i == 0 {
      HeadSeeds(w, data, basedir, names, env);
    } else if o1.failure.None? {
      SkippedBeforeFirst(w, data, basedir, names, env, i);
      assert names[1..][i - 1] == names[i];
      LoadEachFirstFixture(o1.world, data, basedir, names[1..], env, i - 1);
    }
  }

  /** The base case: the head entry is the first fixture for its stem. */
  lemma HeadSeeds(w: World, data: Data, basedir: string, names: seq<string>, env: Env)
    requires WorldWf(w) && names != []
    requires Supported(Format(names[0])) && Requested(data, Stem(names[0])) && Stem(names[0]) !in w.db.stores
    ensures SeedsFixture(LoadEach(w, data, basedir, names, env), Stem(names[0]), Join(basedir, names[0]))
  {
    FirstFixture(w, data, basedir, names, env);
  }

  /** The head entry, when eligible, leaves its collection holding the cached documents as inserted. */
  lemma FirstFixture(w: World, data: Data, basedir: string, names: seq<string>, env: Env)
    requires WorldWf(w) && names != []
    ensures
      var o := LoadEach(w, data, basedir, names, env);
      var path := Join(basedir, names[0]);
      o.failure.None? && Eligible(w.db, data, names[0]) && path in o.world.proc.cache && o.world.proc.cache[path] != [] ==>
        ContentsOf(o.world.db, Stem(names[0])) == WithIds(o.world.proc.cache[path], w.proc.nextOid)
  {
    var o1 := VisitFile(w, data, basedir, names[0], env);
    if o1.failure.None? {
      assert LoadEach(w, data, basedir, names, env) == LoadEach(o1.world, data, basedir, names[1..], env);
      FirstFixtureHere(w, data, basedir, names, env);
    }
  }

  /** One turn of the loop: the head entry is visited, then the rest unless it raised. */
  lemma LoadEachUnfold(w: World, data: Data, basedir: string, names: seq<string>, env: Env)
    requires WorldWf(w) && names != []
    ensures
      var o1 := VisitFile(w, data, basedir, names[0], env);
      && (o1.failure.None? ==> LoadEach(w, data, basedir, names, env) == LoadEach(o1.world, data, basedir, names[1..], env))
      && (o1.failure.Some? ==> LoadEach(w, data, basedir, names, env) == o1)
  {
  }

  /** Before the first fixture for a stem, visiting the head entry does not create that stem. */
  lemma SkippedBeforeFirst(w: World, data: Data, basedir: string, names: seq<string>, env: Env, i: int)
    requires WorldWf(w) && 0 < i < |names|
    ensures FirstFor(names, i) && Stem(names[i]) !in w.db.stores ==>
      && FirstFor(names[1..], i - 1)
      && Stem(names[i]) !in VisitFile(w, data, basedir, names[0], env).world.db.stores
  {
    FirstForTail(names, i);
    OtherEntryKeepsAbsent(w, data, basedir, names[0], env, Stem(names[i]));
  }

  lemma FirstForTail(names: seq<string>, i: int)
    requires 0 < i < |names|
    ensures FirstFor(names, i) ==> FirstFor(names[1..], i - 1)
    ensures FirstFor(names, i) ==> Stem(names[0]) != Stem(names[i]) || !Supported(Format(names[0]))
  {
    assert names[1..][i - 1] == names[i];
    ListedShift(names, i, Stem(names[i]));
    ListedHeadShift(names, i, Stem(names[i]));
  }

  /** An entry listed in `names[1..i]` is listed in `names[..i]`. */
  lemma ListedShift(names: seq<string>, i: int, c: string)
    requires 0 < i <= |names|
    ensures Listed(names[1..][..i - 1], c) ==> Listed(names[..i], c)
  {
    if Listed(names[1..][..i - 1], c) {
      var n :| n in names[1..][..i - 1] && Stem(n) == c && Supported(Format(n));
      PrefixMember(names, i, n);
    }
  }

  /** The head entry, when it is a fixture for `c`, is listed in `names[..i]`. */
  lemma ListedHeadShift(names: seq<string>, i: int, c: string)
    requires 0 < i <= |names|
    ensures Stem(names[0]) == c && Supported(Format(names[0])) ==> Listed(names[..i], c)
  {
    PrefixMember(names, i, names[0]);
  }

  lemma PrefixMember(names: seq<string>, i: int, n: string)
    requires 0 < i <= |names|
    ensures n in names[1..][..i - 1] ==> n in names[..i]
    ensures names[0] in names[..i]
  {
    if n in names[1..][..i - 1] {
      var j :| 0 <= j < i - 1 && names[1..][..i - 1][j] == n;
      assert names[..i][j + 1] == n;
    }
    assert names[..i][0] == names[0];
  }

  /** The first entry of the listing, when eligible, seeds its collection for good. */
  lemma FirstFixtureHere(w: World, data: Data, basedir: string, names: seq<string>, env: Env)
    requires WorldWf(w) && names != []
    ensures
      var o1 := VisitFile(w, data, basedir, names[0], env);
      var o := LoadEach(o1.world, data, basedir, names[1..], env);
      var path := Join(basedir, names[0]);
      o1.failure.None? && Eligible(w.db, data, names[0]) && path in o.world.proc.cache && o.world.proc.cache[path] != [] ==>
        ContentsOf(o.world.db, Stem(names[0])) == WithIds(o.world.proc.cache[path], w.proc.nextOid)
  {
    var o1 := VisitFile(w, data, basedir, names[0], env);
    EligibleEntryLoadedInOrder(w, data, basedir, names[0], env);
  }

  /** Visiting an entry that is not a supported fixture for `c` does not create `c`. */
  lemma OtherEntryKeepsAbsent(w: World, data: Data, basedir: string, name: string, env: Env, c: string)
    requires WorldWf(w)
    ensures
      (Stem(name) != c || !Supported(Format(name))) && c !in w.db.stores ==>
        c !in VisitFile(w, data, basedir, name, env).world.db.stores
  {
  }

  /**
   * `load_fixtures` seeds a requested collection that did not exist from the first
   * fixture for it in the resolved directory's listing.
   */
  lemma LoadFixturesFirstFixture(w: World, data: Data, optionDir: Option<string>, iniDir: string, env: Env, names: seq<string>, i: int)
    requires WorldWf(w)
    ensures
      && env.listdir(ResolveDir(optionDir, iniDir)) == Some(names)
      && FirstFor(names, i) && Requested(data, Stem(names[i])) && Stem(names[i]) !in w.db.stores
      ==> SeedsFixture(LoadFixtures(w, data, optionDir, iniDir, env), Stem(names[i]), Join(ResolveDir(optionDir, iniDir), names[i]))
  {
    var basedir := ResolveDir(optionDir, iniDir);
    if env.listdir(basedir) == Some(names) && FirstFor(names, i) && Requested(data, Stem(names[i])) && Stem(names[i]) !in w.db.stores {
      assert data != NoData;
      assert LoadFixtures(w, data, optionDir, iniDir, env) == LoadEach(w, data, basedir, names, env);
      LoadEachFirstFixture(w, data, basedir, names, env, i);
    }
  }

  /** `load_fixtures` reads only the files of eligible entries of the resolved directory. */
  lemma LoadFixturesReadsOnlyEligible(w: World, data: Data, optionDir: Option<string>, iniDir: string, env: Env, x: string)
    requires WorldWf(w)
    requires x in LoadFixtures(w, data, optionDir, iniDir, env).world.proc.cache && x !in w.proc.cache
    ensures Listing(env, optionDir, iniDir).Some?
    ensures exists n :: n in Listing(env, optionDir, iniDir).value && x == Join(ResolveDir(optionDir, iniDir), n) && Eligible(w.db, data, n)
  {
    var basedir := ResolveDir(optionDir, iniDir);
    assert data != NoData && env.listdir(basedir).Some?;
    LoadEachReadsOnlyEligible(w, data, basedir, env.listdir(basedir).value, env, x);
  }

  /** `load_fixtures` only creates requested collections. */
  lemma LoadFixturesOnlyRequested(w: World, data: Data, optionDir: Option<string>, iniDir: string, env: Env)
    requires WorldWf(w)
    ensures forall c :: c in LoadFixtures(w, data, optionDir, iniDir, env).world.db.stores && c !in w.db.stores ==>
      Requested(data, c)
  {
    if data != NoData {
      var basedir := ResolveDir(optionDir, iniDir);
      if env.listdir(basedir).Some? {
        LoadEachOnlyRequested(w, data, basedir, env.listdir(basedir).value, env);
      }
    }
  }

  /** A non-empty command-line directory wins: the ini value then plays no part. */
  lemma OptionDirWins(w: World, data: Data, dir: string, ini: string, ini': string, env: Env)
    requires WorldWf(w) && dir != ""
    ensures LoadFixtures(w, data, Some(dir), ini, env) == LoadFixtures(w, data, Some(dir), ini', env)
  {
  }

  /** Without a non-empty command-line directory the ini directory is the one used. */
  lemma IniDirFallback(w: World, data: Data, option: Option<string>, ini: string, env: Env)
    requires WorldWf(w) && (option.None? || option.value == "")
    ensures LoadFixtures(w, data, option, ini, env) == LoadFixtures(w, data, Some(ini), ini, env)
  {
  }

  /**
   * Once a file has been parsed, loading it again (for this test or a later one,
   * into any collection) reads nothing more and reuses the cached documents.
   */
  lemma SecondLoadHitsCache(w: World, c1: string, c2: string, path: string, format: string, env: Env)
    requires WorldWf(w) && Supported(format) && env.parse(path, format).Some?
    ensures
      var w1 := LoadFixture(w, c1, path, format, env).world;
      && path in w1.proc.cache
      && LoadFixture(w1, c2, path, format, env).world.proc.parsed == w1.proc.parsed
      && LoadFixture(w1, c2, path, format, env).world.proc.cache == w1.proc.cache
  {
  }

  /**
   * `clean_database`: every collection listed at the start is dropped, leaving no
   * collection in storage; the cached facades are not touched.
   */
  method CleanDatabase(db: Database) returns (r: Database)
    requires DbWf(db)
    ensures DbWf(r)
    ensures CollectionNames(r) == {}
    ensures r == db.(stores := map[])
  {
    var names := CollectionNames(db);
    r := db;
    while names != {}
      invariant DbWf(r)
      invariant r == db.(stores := r.stores)
      invariant CollectionNames(r) == names
      decreases names
    {
      var name :| name in names;
      r := DropCollection(r, name);
      names := names - {name};
    }
    assert r.stores.Keys == {};
  }

  /** The entries of the directory `load_fixtures` resolves, or `None` when it cannot be listed. */
  function Listing(env: Env, optionDir: Option<string>, iniDir: string): Option<seq<string>> {
    env.listdir(ResolveDir(optionDir, iniDir))
  }

  /** Every listed supported fixture for a stem `data` requests has had its effect in `w`. */
  ghost predicate AllSeeded(w: World, data: Data, basedir: string, names: seq<string>) {
    forall n :: n in names && Supported(Format(n)) && Requested(data, Stem(n)) ==> Seeded(w, basedir, n)
  }

  /**
   * For the first listed fixture of every requested stem, a non-empty cached document
   * list is exactly what the collection holds, in file order and as inserted.
   */
  ghost predicate FirstFixturesHeld(w: World, data: Data, basedir: string, names: seq<string>)
    requires DbWf(w.db)
  {
    forall i :: FirstFor(names, i) && Requested(data, Stem(names[i])) ==>
      SeedsFixture(Outcome(w, None), Stem(names[i]), Join(basedir, names[i]))
  }

  /**
   * Every path that entered `_cache` between `p` and `p'` is the file of a listed
   * entry with a supported format and a requested stem.
   */
  ghost predicate ParsesOnlyRequested(p: Process, p': Process, data: Data, basedir: string, listing: Option<seq<string>>) {
    forall x :: x in p'.cache && x !in p.cache ==>
      && listing.Some?
      && exists n :: n in listing.value && x == Join(basedir, n) && Supported(Format(n)) && Requested(data, Stem(n))
  }

  /**
   * The `async_mongodb` fixture: resolves the marker, takes database `pytest` of a
   * new client, cleans it unless `not_drop_exists` is set, loads the fixtures and
   * hands the database to the test. The process state carries over to later tests.
   */
  method AsyncMongodb(clientId: nat, marker: Option<seq<Value>>, notDropExists: bool,
                      optionDir: Option<string>, iniDir: string, proc: Process, env: Env)
    returns (proc': Process, r: Result<Database, Error>)
    requires ProcWf(proc)
    ensures ProcWf(proc') && Extends(proc, proc')
    ensures ResolveMarker(marker).Failure? ==> proc' == proc && r == Failure(ResolveMarker(marker).error)
    ensures r.Success? ==> r.value.name == "pytest" && r.value.clientId == clientId && DbWf(r.value)
    ensures marker.None? ==> proc' == proc && r.Success? && CollectionNames(r.value) == {}
    ensures r.Success? ==> forall c :: c in CollectionNames(r.value) ==> Requested(ResolveMarker(marker).value, c)
    ensures r.Success? && Listing(env, optionDir, iniDir).Some? ==>
      var basedir, names := ResolveDir(optionDir, iniDir), Listing(env, optionDir, iniDir).value;
      && AllSeeded(World(r.value, proc'), ResolveMarker(marker).value, basedir, names)
      && FirstFixturesHeld(World(r.value, proc'), ResolveMarker(marker).value, basedir, names)
    ensures Listing(env, optionDir, iniDir).None? ==> proc' == proc
    ensures ResolveMarker(marker).Success? ==>
      ParsesOnlyRequested(proc, proc', ResolveMarker(marker).value, ResolveDir(optionDir, iniDir), Listing(env, optionDir, iniDir))
  {
    var resolved := ResolveMarker(marker);
    if resolved.Failure? {
      return proc, Failure(resolved.error);
    }
    var data := resolved.value;
    var client := NewClient(clientId);
    var (_, db) := GetDatabase(client, "pytest");
    if !notDropExists {
      db := CleanDatabase(db);
    }
    var w := World(db, proc);
    var o := LoadFixtures(w, data, optionDir, iniDir, env);
    LoadFixturesOnlyRequested(w, data, optionDir, iniDir, env);
    if Listing(env, optionDir, iniDir).Some? {
      var names := Listing(env, optionDir, iniDir).value;
      forall i | FirstFor(names, i) && Requested(data, Stem(names[i]))
        ensures SeedsFixture(o, Stem(names[i]), Join(ResolveDir(optionDir, iniDir), names[i]))
      {
        LoadFixturesFirstFixture(w, data, optionDir, iniDir, env, names, i);
      }
    }
    forall x | x in o.world.proc.cache && x !in proc.cache
      ensures Listing(env, optionDir, iniDir).Some?
      ensures exists n ::
        && n in Listing(env, optionDir, iniDir).value && x == Join(ResolveDir(optionDir, iniDir), n)
        && Supported(Format(n)) && Requested(data, Stem(n))
    {
      LoadFixturesReadsOnlyEligible(w, data, optionDir, iniDir, env, x);
    }
    proc' := o.world.proc;
    r := if o.failure.None? then Success(o.world.db) else Failure(o.failure.value);
  }
}

=== FILE: paths.dfy ===
/**
 * The string operations the fixture loader applies to directory entries: POSIX
 * `os.path.basename`, `os.path.splitext` and `os.path.join`, `str.strip('.')`, and
 * the substring test behind `in` on a string.
 */
module Paths {

  /** The index of the last `c` in `s`, or -1 (`str.rfind`). */
  function LastIndexOf(s: string, c: char): (r: int)
    ensures -1 <= r < |s|
    ensures r == -1 <==> c !in s
    ensures r >= 0 ==> s[r] == c && c !in s[r + 1..]
  {
    if s == [] then -1
    else if s[|s| - 1] == c then |s| - 1
    else
      var r := LastIndexOf(s[..|s| - 1], c);
      assert s == s[..|s| - 1] + [s[|s| - 1]];
      r
  }

  /** `os.path.basename`: everything after the last `/`. */
  function Basename(p: string): (r: string)
    ensures '/' !in r
    ensures |r| <= |p| && p[|p| - |r|..] == r
    ensures |r| < |p| ==> p[|p| - |r| - 1] == '/'
    ensures '/' !in p ==> r == p
  {
    p[LastIndexOf(p, '/') + 1..]
  }

  predicate AllDots(s: string) {
    forall i :: 0 <= i < |s| ==> s[i] == '.'
  }

  /**
   * `os.path.splitext`: splits off the text from the last dot of the final path
   * component, unless only dots precede that dot within the component (a leading-dot
   * name such as `.json` has no extension).
   */
  function SplitExt(p: string): (r: (string, string))
    ensures r.0 + r.1 == p
    ensures r.1 != [] ==> r.1[0] == '.' && '.' !in r.1[1..] && '/' !in r.1
  {
    var sep := LastIndexOf(p, '/');
    var dot := LastIndexOf(p, '.');
    if dot > sep && !AllDots(p[sep + 1..dot]) then
      ExtensionShape(p, sep, dot);
      (p[..dot], p[dot..])
    else (p, [])
  }

  /** The text from the last dot after the last separator has no other dot and no separator. */
  lemma ExtensionShape(p: string, sep: int, dot: int)
    requires sep == LastIndexOf(p, '/') && dot == LastIndexOf(p, '.') && sep < dot
    ensures p[dot..][0] == '.' && '.' !in p[dot..][1..] && '/' !in p[dot..]
  {
    assert p[dot..][1..] == p[dot + 1..];
    assert p[dot..] == p[sep + 1..][dot - sep - 1..];
  }

  /** `str.lstrip('.')`. */
  function StripLeading(s: string): (r: string)
    ensures r == [] || r[0] != '.'
    ensures |r| <= |s| && s[|s| - |r|..] == r && AllDots(s[..|s| - |r|])
  {
    if s != [] && s[0] == '.' then StripLeading(s[1..]) else s
  }

  /** `str.rstrip('.')`. */
  function StripTrailing(s: string): (r: string)
    ensures r == [] || r[|r| - 1] != '.'
    ensures |r| <= |s| && s[..|r|] == r && AllDots(s[|r|..])
  {
    if s != [] && s[|s| - 1] == '.' then StripTrailing(s[..|s| - 1]) else s
  }

  /** `str.strip('.')`: the text between the leading and the trailing run of dots. */
  function StripDots(s: string): (r: string)
    ensures r == [] || (r[0] != '.' && r[|r| - 1] != '.')
    ensures |r| <= |s|
  {
    StripTrailing(StripLeading(s))
  }

  /** `os.path.join(a, b)` for two components. */
  function Join(a: string, b: string): (r: string)
    ensures |r| >= |b| && r[|r| - |b|..] == b
    ensures b != [] && b[0] == '/' ==> r == b
    ensures (b == [] || b[0] != '/') ==> |r| >= |a| && r[..|a|] == a
    ensures (b == [] || b[0] != '/') ==> |r| - |a| - |b| == (if a == [] || a[|a| - 1] == '/' then 0 else 1)
    ensures |r| == |a| + |b| + 1 ==> r[|a|] == '/'
  {
    if b != [] && b[0] == '/' then b
    else if a == [] || a[|a| - 1] == '/' then a + b
    else a + "/" + b
  }

  /** `needle` occurs in `hay` starting at index `i`. */
  predicate OccursAt(needle: string, hay: string, i: nat) {
    i + |needle| <= |hay| && hay[i..i + |needle|] == needle
  }

  /** Python's `needle in hay` on strings, as a property. */
  ghost predicate IsSubstring(needle: string, hay: string) {
    exists i: nat :: OccursAt(needle, hay, i)
  }

  /** `needle in hay`, computed by trying each start position in turn. */
  function Contains(hay: string, needle: string): (b: bool)
    ensures b <==> IsSubstring(needle, hay)
    decreases |hay|
  {
    if |needle| > |hay| then
      assert forall i: nat :: !OccursAt(needle, hay, i);
      false
    else if hay[..|needle|] == needle then
      assert OccursAt(needle, hay, 0);
      true
    else
      var b := Contains(hay[1..], needle);
      OccursShift(needle, hay);
      b
  }

  /** When `needle` is not a prefix of `hay`, it occurs in `hay` iff it occurs in `hay[1..]`. */
  lemma OccursShift(needle: string, hay: string)
    requires |needle| <= |hay| && hay[..|needle|] != needle
    ensures IsSubstring(needle, hay) <==> IsSubstring(needle, hay[1..])
  {
    if IsSubstring(needle, hay) {
      var i: nat :| OccursAt(needle, hay, i);
      assert i != 0;
      assert hay[1..][i - 1..i - 1 + |needle|] == hay[i..i + |needle|];
      assert OccursAt(needle, hay[1..], i - 1);
    }
    if IsSubstring(needle, hay[1..]) {
      var i: nat :| OccursAt(needle, hay[1..], i);
      assert hay[1..][i..i + |needle|] == hay[i + 1..i + 1 + |needle|];
      assert OccursAt(needle, hay, i + 1);
    }
  }

  /** A name without a dot has no extension. */
  lemma SplitExtNoDot(p: string)
    requires '.' !in p
    ensures SplitExt(p) == (p, [])
  {
  }

  /**
   * For `stem.ext` with no dot in `ext` and a stem that is not all dots, splitext
   * gives back exactly `stem` and `.ext`; the stem may itself contain dots.
   */
  lemma {:induction false} SplitExtSimpleName(stem: string, ext: string)
    requires '/' !in stem && '/' !in ext && '.' !in ext
    requires !AllDots(stem)
    ensures SplitExt(stem + "." + ext) == (stem, "." + ext)
  {
    var p := stem + "." + ext;
    var dot := LastIndexOf(p, '.');
    assert p[|stem|] == '.';
    assert p[|stem| + 1..] == ext;
    assert dot == |stem|;
    assert LastIndexOf(p, '/') == -1 by {
      assert forall i :: 0 <= i < |p| ==> p[i] != '/' by {
        forall i | 0 <= i < |p| ensures p[i] != '/' {
          if i < |stem| { assert p[i] == stem[i]; }
          else if i > |stem| { assert p[i] == ext[i - |stem| - 1]; }
        }
      }
    }
    assert p[0..dot] == p[..dot] == stem;
    assert p[dot..] == "." + ext;
    assert !AllDots(p[LastIndexOf(p, '/') + 1..dot]);
  }

  /** A leading-dot name such as `.json` has no extension at all. */
  lemma SplitExtHiddenName()
    ensures SplitExt(".json") == (".json", [])
  {
    assert LastIndexOf(".json", '.') == 0;
  }

  /** Stripping the dots of an extension `.ext` leaves `ext`. */
  lemma {:induction false} StripDotsExtension(ext: string)
    requires '.' !in ext
    ensures StripDots("." + ext) == ext
  {
    assert ("." + ext)[1..] == ext;
    if ext != [] {
      assert ext[0] in ext;
      assert ext[|ext| - 1] in ext;
    }
  }
}

=== FILE: stores.dfy ===
/**
 * The backing store of one collection: a map from store key to document that, like
 * the Python dict it models, remembers insertion order. Queries enumerate it in
 * that order.
 */
module Stores {
  import opened Values
  import opened Wrappers

  predicate Distinct<T(==)>(s: seq<T>) {
    forall i, j :: 0 <= i < j < |s| ==> s[i] != s[j]
  }

  datatype Store = Store(order: seq<Key>, docs: map<Key, Doc>)

  const Empty: Store := Store([], map[])

  predicate HasId(d: Doc) {
    "_id" in d
  }

  function IdKey(d: Doc): Key
    requires HasId(d)
  {
    KeyOf(d["_id"])
  }

  /** Each stored document sits under the key of its own `_id`; `order` lists each key once. */
  predicate Wf(s: Store) {
    && Distinct(s.order)
    && (forall k :: k in s.order ==> k in s.docs)
    && (forall k :: k in s.docs ==> k in s.order)
    && (forall k :: k in s.docs ==> HasId(s.docs[k]) && IdKey(s.docs[k]) == k)
  }

  /** The stored documents in insertion order. */
  function Contents(s: Store): (r: seq<Doc>)
    requires Wf(s)
    ensures |r| == |s.order|
  {
    seq(|s.order|, i requires 0 <= i < |s.order| => s.docs[s.order[i]])
  }

  /** `order` with `k` taken out. */
  function Without(order: seq<Key>, k: Key): (r: seq<Key>)
    ensures forall x :: x in r <==> x in order && x != k
    ensures Distinct(order) ==> Distinct(r)
    ensures k !in order ==> r == order
    ensures Distinct(order) ==>
      forall i :: 0 <= i < |order| && order[i] == k ==> r == order[..i] + order[i + 1..]
  {
    if order == [] then []
    else
      var rest := Without(order[1..], k);
      var r := if order[0] == k then rest else [order[0]] + rest;
      WithoutKeeps(order, k, rest, r);
      WithoutCut(order, k, rest, r);
      r
  }

  /** The step of `Without` that keeps every other key, each once. */
  lemma WithoutKeeps(order: seq<Key>, k: Key, rest: seq<Key>, r: seq<Key>)
    requires order != []
    requires forall x :: x in rest <==> x in order[1..] && x != k
    requires Distinct(order[1..]) ==> Distinct(rest)
    requires k !in order[1..] ==> rest == order[1..]
    requires r == if order[0] == k then rest else [order[0]] + rest
    ensures forall x :: x in r <==> x in order && x != k
    ensures Distinct(order) ==> Distinct(r)
    ensures k !in order ==> r == order
  {
    assert order == [order[0]] + order[1..];
    if Distinct(order) {
      assert Distinct(order[1..]);
      assert order[0] !in order[1..];
    }
  }

  /** The step of `Without` that cuts `k` out at its one position. */
  lemma WithoutCut(order: seq<Key>, k: Key, rest: seq<Key>, r: seq<Key>)
    requires order != []
    requires k !in order[1..] ==> rest == order[1..]
    requires Distinct(order[1..]) ==>
      forall i :: 0 <= i < |order[1..]| && order[1..][i] == k ==> rest == order[1..][..i] + order[1..][i + 1..]
    requires r == if order[0] == k then rest else [order[0]] + rest
    ensures Distinct(order) ==>
      forall i :: 0 <= i < |order| && order[i] == k ==> r == order[..i] + order[i + 1..]
  {
    if Distinct(order) {
      assert Distinct(order[1..]);
      forall i | 0 <= i < |order| && order[i] == k
        ensures r == order[..i] + order[i + 1..]
      {
        if i == 0 {
          assert k !in order[1..];
          assert order[..0] + order[1..] == order[1..];
        } else {
          assert order[1..][i - 1] == k;
          assert order[..i] == [order[0]] + order[1..][..i - 1];
          assert order[i + 1..] == order[1..][i..];
        }
      }
    }
  }

  /** The keys of `order` outside `gone`, in their original order. */
  function Keep(order: seq<Key>, gone: set<Key>): (r: seq<Key>)
    ensures forall x :: x in r <==> x in order && x !in gone
    ensures Distinct(order) ==> Distinct(r)
    ensures gone == {} ==> r == order
  {
    if order == [] then []
    else if order[0] in gone then Keep(order[1..], gone)
    else
      var rest := Keep(order[1..], gone);
      assert Distinct(order) ==> order[0] !in order[1..];
      [order[0]] + rest
  }

  /** Taking out one key is keeping everything outside `{k}`. */
  lemma {:induction false} WithoutIsKeep(order: seq<Key>, k: Key)
    ensures Without(order, k) == Keep(order, {k})
  {
    if order != [] {
      WithoutIsKeep(order[1..], k);
    }
  }

  /** Filtering twice is filtering once by both sets. */
  lemma {:induction false} KeepKeep(order: seq<Key>, a: set<Key>, b: set<Key>)
    ensures Keep(Keep(order, a), b) == Keep(order, a + b)
  {
    if order != [] {
      KeepKeep(order[1..], a, b);
      if order[0] !in a {
        assert Keep(order, a) == [order[0]] + Keep(order[1..], a);
        assert Keep(order, a)[1..] == Keep(order[1..], a);
      }
    }
  }

  /** `del store[k]`: the entry goes, every other entry stays as it was. */
  function Remove(s: Store, k: Key): (r: Store)
    requires Wf(s) && k in s.docs
    ensures Wf(r)
    ensures r.docs == s.docs - {k}
    ensures |r.docs| == |s.docs| - 1
    ensures r.order == Without(s.order, k)
    ensures forall i :: 0 <= i < |s.order| && s.order[i] == k ==> r.order == s.order[..i] + s.order[i + 1..]
  {
    Store(Without(s.order, k), s.docs - {k})
  }

  /** Stores a document under its own id, after every document already stored. */
  function Insert(s: Store, d: Doc): (r: Store)
    requires Wf(s) && HasId(d) && IdKey(d) !in s.docs
    ensures Wf(r)
    ensures r.docs == s.docs[IdKey(d) := d]
    ensures Contents(r) == Contents(s) + [d]
  {
    var r := Store(s.order + [IdKey(d)], s.docs[IdKey(d) := d]);
    assert forall k :: k in r.order <==> k in s.order || k == IdKey(d);
    r
  }

  /**
   * The query matcher. Matching a filter against a document belongs to the storage
   * engine, so the model takes it as a parameter.
   */
  type Matcher = (Filter, Doc) -> bool

  function MatchIn(order: seq<Key>, docs: map<Key, Doc>, f: Filter, matches: Matcher): (ks: seq<Key>)
    requires forall k :: k in order ==> k in docs
    ensures forall k :: k in ks <==> k in order && matches(f, docs[k])
    ensures Distinct(order) ==> Distinct(ks)
    ensures ks != [] ==>
      forall j :: 0 <= j < |order| && matches(f, docs[order[j]]) ==> ks[0] in order[..j + 1]
  {
    if order == [] then []
    else
      var rest := MatchIn(order[1..], docs, f, matches);
      var ks := if matches(f, docs[order[0]]) then [order[0]] + rest else rest;
      MatchInStep(order, docs, f, matches, rest, ks);
      ks
  }

  lemma MatchInStep(order: seq<Key>, docs: map<Key, Doc>, f: Filter, matches: Matcher, rest: seq<Key>, ks: seq<Key>)
    requires order != [] && forall k :: k in order ==> k in docs
    requires forall k :: k in rest <==> k in order[1..] && matches(f, docs[k])
    requires Distinct(order[1..]) ==> Distinct(rest)
    requires rest != [] ==>
      forall j :: 0 <= j < |order[1..]| && matches(f, docs[order[1..][j]]) ==> rest[0] in order[1..][..j + 1]
    requires ks == if matches(f, docs[order[0]]) then [order[0]] + rest else rest
    ensures forall k :: k in ks <==> k in order && matches(f, docs[k])
    ensures Distinct(order) ==> Distinct(ks)
    ensures ks != [] ==>
      forall j :: 0 <= j < |order| && matches(f, docs[order[j]]) ==> ks[0] in order[..j + 1]
  {
    assert order == [order[0]] + order[1..];
    if Distinct(order) && matches(f, docs[order[0]]) {
      assert order[0] !in order[1..];
    }
    if matches(f, docs[order[0]]) {
      HeadIsFirst(order, docs, f, matches, ks[0]);
    } else if ks != [] {
      TailFirstIsFirst(order, docs, f, matches, ks);
    }
  }

  lemma HeadIsFirst(order: seq<Key>, docs: map<Key, Doc>, f: Filter, matches: Matcher, k: Key)
    requires order != [] && order[0] == k && forall k :: k in order ==> k in docs
    ensures forall j :: 0 <= j < |order| && matches(f, docs[order[j]]) ==> k in order[..j + 1]
  {
    forall j | 0 <= j < |order| && matches(f, docs[order[j]])
      ensures k in order[..j + 1]
    {
      assert order[..j + 1][0] == k;
    }
  }

  lemma TailFirstIsFirst(order: seq<Key>, docs: map<Key, Doc>, f: Filter, matches: Matcher, ks: seq<Key>)
    requires order != [] && ks != [] && forall k :: k in order ==> k in docs
    requires !matches(f, docs[order[0]])
    requires forall j :: 0 <= j < |order[1..]| && matches(f, docs[order[1..][j]]) ==> ks[0] in order[1..][..j + 1]
    ensures forall j :: 0 <= j < |order| && matches(f, docs[order[j]]) ==> ks[0] in order[..j + 1]
  {
    forall j | 0 <= j < |order| && matches(f, docs[order[j]])
      ensures ks[0] in order[..j + 1]
    {
      assert j != 0;
      assert order[1..][j - 1] == order[j];
      assert order[1..][..j] == order[1..j + 1];
    }
  }

  /**
   * The keys of the documents matching `f`, in store order: every match exactly once,
   * and the first one precedes every other match.
   */
  function MatchingKeys(s: Store, f: Filter, matches: Matcher): (ks: seq<Key>)
    requires Wf(s)
    ensures ks == Keep(s.order, set k | k in s.docs && !matches(f, s.docs[k]))
    ensures Distinct(ks)
    ensures forall k :: k in ks <==> k in s.docs && matches(f, s.docs[k])
    ensures ks != [] ==>
      forall j :: 0 <= j < |s.order| && matches(f, s.docs[s.order[j]]) ==> ks[0] in s.order[..j + 1]
  {
    MatchInIsKeep(s.order, s.docs, f, matches, set k | k in s.docs && !matches(f, s.docs[k]));
    MatchIn(s.order, s.docs, f, matches)
  }

  /** Collecting the matches in order is keeping the order's keys outside the non-matches. */
  lemma {:induction false} MatchInIsKeep(order: seq<Key>, docs: map<Key, Doc>, f: Filter, matches: Matcher, gone: set<Key>)
    requires forall k :: k in order ==> k in docs
    requires forall k :: k in order ==> (k in gone <==> !matches(f, docs[k]))
    ensures MatchIn(order, docs, f, matches) == Keep(order, gone)
  {
    if order != [] {
      MatchInIsKeep(order[1..], docs, f, matches, gone);
    }
  }

  function IdKeys(ds: seq<Doc>): (ks: seq<Key>)
    requires forall i :: 0 <= i < |ds| ==> HasId(ds[i])
    ensures |ks| == |ds|
  {
    seq(|ds|, i requires 0 <= i < |ds| => IdKey(ds[i]))
  }

  /** The engine's `find(f)`: the matching documents, in store order. */
  function Find(s: Store, f: Filter, matches: Matcher): (found: seq<Doc>)
    requires Wf(s)
    ensures forall i :: 0 <= i < |found| ==> HasId(found[i])
    ensures IdKeys(found) == MatchingKeys(s, f, matches)
    ensures forall i :: 0 <= i < |found| ==> IdKey(found[i]) in s.docs && found[i] == s.docs[IdKey(found[i])]
  {
    var ks := MatchingKeys(s, f, matches);
    var found := seq(|ks|, i requires 0 <= i < |ks| => s.docs[ks[i]]);
    assert IdKeys(found) == ks;
    found
  }

  /**
   * The model of the engine's `insert_one`: a document without an `_id` receives a
   * freshly generated ObjectId (the counter `next` stands in for the generator), and
   * an id already stored is refused. Returns the new store and the next counter.
   */
  function InsertOne(s: Store, d: Doc, next: nat): (r: Result<(Store, nat), Error>)
    requires Wf(s)
    ensures r.Success? ==> Wf(r.value.0)
    ensures r.Success? ==> Contents(r.value.0) == Contents(s) + [WithId(d, next)]
    ensures r.Success? ==> r.value.1 == next + (if HasId(d) then 0 else 1)
    ensures r.Failure? <==> IdKey(WithId(d, next)) in s.docs
  {
    var d' := WithId(d, next);
    if IdKey(d') in s.docs then Failure(DuplicateKey(IdKey(d')))
    else Success((Insert(s, d'), if HasId(d) then next else next + 1))
  }

  /**
   * `e` is `d` as `insert_one` stores it: the same fields apart from `_id`, and
   * `d`'s own `_id` when it has one, a generated ObjectId otherwise.
   */
  predicate AsInserted(d: Doc, e: Doc) {
    && HasId(e)
    && e - {"_id"} == d - {"_id"}
    && (if HasId(d) then e["_id"] == d["_id"] else e["_id"].Oid?)
  }

  /** The document as stored: its own `_id`, or the generated `Oid(next)`. */
  function WithId(d: Doc, next: nat): (r: Doc)
    ensures AsInserted(d, r)
    ensures HasId(d) ==> r == d
  {
    if HasId(d) then d else d["_id" := Oid(next)]
  }

  /** `es` is `ds` as inserted one by one, document for document. */
  predicate AllInserted(ds: seq<Doc>, es: seq<Doc>) {
    if ds == [] then es == []
    else es != [] && AsInserted(ds[0], es[0]) && AllInserted(ds[1..], es[1..])
  }

  /** `AllInserted` pairs the two sequences position by position. */
  lemma {:induction false} AllInsertedAt(ds: seq<Doc>, es: seq<Doc>)
    requires AllInserted(ds, es)
    ensures |es| == |ds|
    ensures forall j :: 0 <= j < |ds| ==> AsInserted(ds[j], es[j])
  {
    if ds != [] {
      AllInsertedAt(ds[1..], es[1..]);
      assert forall j :: 0 < j < |ds| ==> ds[1..][j - 1] == ds[j] && es[1..][j - 1] == es[j];
    }
  }

  /** A fixture sequence as inserted one by one, generating ids from `next` on. */
  function WithIds(ds: seq<Doc>, next: nat): (r: seq<Doc>)
    ensures |r| == |ds|
    ensures AllInserted(ds, r)
    ensures (forall j :: 0 <= j < |ds| ==> HasId(ds[j])) ==> r == ds
  {
    if ds == [] then []
    else [WithId(ds[0], next)] + WithIds(ds[1..], if HasId(ds[0]) then next else next + 1)
  }

  /** The number of ObjectIds generated while inserting `ds`. */
  function MissingIds(ds: seq<Doc>): (n: nat)
    ensures n <= |ds|
    ensures n == 0 <==> forall j :: 0 <= j < |ds| ==> HasId(ds[j])
    ensures n == |ds| <==> forall j :: 0 <= j < |ds| ==> !HasId(ds[j])
  {
    if ds == [] then 0 else (if HasId(ds[0]) then 0 else 1) + MissingIds(ds[1..])
  }
}

=== FILE: values.dfy ===
/**
 * The Python values the plugin inspects: filters passed to the collection facade,
 * option arguments whose truthiness is inspected, marker arguments and documents.
 */
module Values {

  /** A Python value as far as the plugin distinguishes them. `Oid` is an ObjectId. */
  datatype Value =
    | Null
    | Bool(b: bool)
    | Int(i: int)
    | Str(s: string)
    | Oid(serial: nat)
    | List(items: seq<Value>)
    | Dict(fields: map<string, Value>)

  /** A document and a query filter are both string-keyed mappings. */
  type Doc = map<string, Value>
  type Filter = map<string, Value>

  /** Python truthiness (`if hint:`, `option_dir or ini_dir`, `fixtures and ...`). */
  predicate Truthy(v: Value) {
    match v
    case Null => false
    case Bool(b) => b
    case Int(i) => i != 0
    case Str(s) => s != ""
    case Oid(_) => true
    case List(items) => items != []
    case Dict(fields) => fields != map[]
  }

  /** `isinstance(v, Mapping)`. */
  predicate IsMapping(v: Value) {
    v.Dict?
  }

  /**
   * The filter normalisation shared by `find_one` and `_delete`: `None` matches
   * everything, a non-mapping value is shorthand for a lookup by `_id`.
   */
  function NormaliseFilter(v: Value): (r: Filter)
    ensures v == Null ==> r == map[]
    ensures v != Null && !IsMapping(v) ==> r.Keys == {"_id"} && r["_id"] == v
    ensures IsMapping(v) ==> r == v.fields
  {
    if v == Null then map[]
    else if !IsMapping(v) then map["_id" := v]
    else v.fields
  }

  /**
   * The key under which a document is stored. A dict-valued `_id` is unhashable in
   * Python and is stored under its `hashdict` form; every other id is stored as is.
   */
  datatype Key = Plain(id: Value) | Hashed(fields: map<string, Value>)

  function KeyOf(id: Value): (k: Key)
    ensures k.Hashed? <==> IsMapping(id)
    ensures IdOf(k) == id
  {
    if id.Dict? then Hashed(id.fields) else Plain(id)
  }

  /** The id a store key stands for: a `hashdict` turned back into its dict. */
  function IdOf(k: Key): Value {
    match k
    case Plain(id) => id
    case Hashed(fields) => Dict(fields)
  }

  /** Distinct ids never share a store key, so deleting by key removes one document's entry. */
  lemma KeyOfInjective(a: Value, b: Value)
    ensures KeyOf(a) == KeyOf(b) <==> a == b
  {
    assert IdOf(KeyOf(a)) == a && IdOf(KeyOf(b)) == b;
  }

  /** The exceptions the modelled code raises or lets propagate. */
  datatype Error =
    | NotImplemented(option: string)  // NotImplementedError from `_delete`
    | TypeError(reason: string)       // unhashable marker item, `in` on a non-container
    | IndexError                      // `marker.args[0]` on a marker without arguments
    | DirectoryError(dir: string)     // `os.listdir` on a missing directory
    | ReadError(path: string)         // opening or decoding a fixture file
    | DuplicateKey(key: Key)          // `insert_one` of an id already stored
}

=== FILE: wrappers.dfy ===
/** Failure-compatible wrappers shared by every module of the model. */
module Wrappers {

  /** Python's `None` versus a present value. */
  datatype Option<+T> = None | Some(value: T)

  /** The outcome of an operation that can raise: a value, or the exception raised. */
  datatype Result<+T, +E> = Success(value: T) | Failure(error: E) {
    predicate IsFailure() { Failure? }

    function PropagateFailure<U>(): Result<U, E>
      requires Failure?
    {
      Failure(error)
    }

    function Extract(): T
      requires Success?
    {
      value
    }
  }
}
